=== FILE: README.md ===
# Asset inventory: a Dafny model

This project models the logic of a small asset-inventory application. The
front end is a React client. The back end is a Spring service over a MongoDB
collection. Everything is modelled as immutable datatypes and pure functions.

- **Category catalog** (`AssetTypes`): the six category constants, the
  `{value, label, color}` table, and the two lookups with their fallbacks.
- **Filter / paginate pipeline** (`Filter`): the search and category match,
  JavaScript `slice` paging with six items per page, `Math.ceil` page count,
  the category toggle, clear-filters, and the effect that resets the page to 1.
- **Client collection state** (`Collection`): `{assets, formData, editingId,
  loading}` and the fetch, submit, edit, cancel and delete handlers. Each
  remote call is listed in the step's `calls`. Its outcome (`Ok(v)` or
  `Err(body)`) is a parameter.
- **Dashboard statistics** (`Calendar`, `Dashboard`): the total, the
  this-month and this-week counts, and the latest asset. The reduce keeps the
  first element on ties. Dates are parsed from `YYYY-MM-DD`, and "now" is a
  parameter.
- **Back-end store rules** (`Entity`, `ServiceImpl`, `LegacyService`,
  `Controller`): the asset document and its declared constraints. The
  repository is a `map<string, Asset>` keyed by id. There are two service
  variants, kept as separate modules, and the controller's mapping from a
  service outcome to an HTTP status and body.
- **End to end** (`EndToEnd`): the message the user sees when the server
  refuses a submit.

Shared helpers: `Wrappers` (`Option`, `Result`) and `Text` (ASCII
lower-casing, substring search).

## Behaviour worth knowing

- **No client-side validation.** `handleSubmit` validates nothing and the hook
  has no `formErrors`, although the test at
  `frontend/src/hooks/useAssets.test.ts:65-83` expects both.
  `Collection.Submit` always makes the save call.
- **Size counts blanks.** The back end's `@Size(min = 2, max = 100)` counts
  the untrimmed name, not its trimmed length. `Entity.SizeCountsBlanks`
  shows the difference.
- **Negative pages are not empty.** `slice` counts negative indexes from the
  end, so page -1 shows the seventh- to twelfth-last matches
  (`Filter.NegativePageCountsFromEnd`). Page 0 and pages past `totalPages`
  are empty.
- **Toggling twice.** Toggling a category twice restores the previous
  selection only when nothing or that same category was selected. From
  another category it ends with nothing selected (`Filter.ToggleTwice`).
- **Page reset needs a real change.** The reset effect runs only when the
  search term or category actually changes. For example, `clearFilters` on
  already-clear filters keeps the current page.
- **Missing dates and categories.** The server accepts a create with no date
  or category and sends them back as `null`. The client keeps them as
  `None`. `new Date(null)` is the epoch (1970-01-01), not an invalid date, so
  an undated asset loses "latest" to any later-dated one
  (`Dashboard.NullDateLosesToLaterDate`). A `null` category matches no
  selected category.
- **Size counts UTF-16 units.** `@Size` uses Java's `String.length()`, so a
  one-emoji name such as `💻` is two units long and passes the minimum of 2
  (`Entity.SizeCountsCodeUnits`).
- **JavaScript truthiness.** A selected category `""` filters nothing. An
  edited asset with id `""` is treated as new. An empty `error` field in a
  failure body falls through to `message`.
- **Only the older service is reachable.** The controller calls the older
  service class `AssetService`, which raises a bare runtime exception for a
  missing id. `AssetServiceImpl` names the class `AssetService` in its
  `implements` clause, and a class cannot be implemented, so that file does
  not compile as written. The class does have the same list, add, delete and
  update methods; its `getAssetById` returns an `Optional`, and it has no
  `getAssetsPaginated`. Both variants are modelled. `LegacyService.VariantsAgreeOnUpdate` shows they
  refuse the same updates and differ only in whether the category is changed.

## Model

| member | source | states |
|---|---|---|
| `Text.Lower` | frontend/src/hooks/useFilter.ts:20-21 | `toLowerCase` keeps the length and lowers each character on its own (ASCII letters only) |
| `Text.LowerIdempotent` | frontend/src/hooks/useFilter.ts:20-21 | lower-casing twice is the same as lower-casing once |
| `Text.ContainsEmpty` | frontend/src/hooks/useFilter.ts:20-21 | `includes('')` holds for every string, so an empty search matches every asset |
| `AssetTypes.Find` | frontend/src/types/Asset.ts:34 | `CATEGORIES.find` gives the first row whose value equals the key, and gives nothing exactly when no row matches |
| `AssetTypes.CatalogIsComplete` | frontend/src/types/Asset.ts:24-31 | the catalog has six rows, their values are pairwise distinct, and every category constant has a row |
| `AssetTypes.ValueInjective` | frontend/src/types/Asset.ts:1-8 | distinct category constants stand for distinct strings |
| `AssetTypes.GetCategoryColor` | frontend/src/types/Asset.ts:33-36 | for any key, present or absent, the result is the matching row's colour, or `#999` when no row matches; the lookup never fails |
| `AssetTypes.GetCategoryLabel` | frontend/src/types/Asset.ts:38-41 | for any key, the result is the matching row's label, or the `📦 Other` label when no row matches |
| `AssetTypes.LookupOfConstant` | frontend/src/types/Asset.ts:24-41 | each category constant resolves to its own row's colour and label |
| `AssetTypes.FallbacksAgainstOther` | frontend/src/types/Asset.ts:30-40 | an unknown category gets the Other label but not the Other colour |
| `Filter.FilterAssets` | frontend/src/hooks/useFilter.ts:17-27 | an asset is in the result iff it is in the list and matches both the lower-cased search (name or serial number) and the category; the count of each asset is kept; the result is an order-preserving subsequence |
| `Filter.FilterKeepsAllMatching` | frontend/src/hooks/useFilter.ts:18-25 | when every asset matches, the filtered list is the list itself |
| `Filter.SearchIgnoresTermCase` | frontend/src/hooks/useFilter.ts:20-21 | the filter gives the same list for a term and for its lower-cased form |
| `Filter.EmptyFilterIsIdentity` | frontend/src/hooks/useFilter.ts:19-24 | an empty search with no category selected shows exactly the original list |
| `Filter.Clamp` | frontend/src/hooks/useFilter.ts:31-34 | a `slice` index is normalised into `[0, n]` |
| `Filter.Slice` | frontend/src/hooks/useFilter.ts:31-34 | `slice` gives the run that starts at the normalised start index, with length normalised end minus normalised start (or 0); when both indexes count from the same end it is no longer than `end − start`, and an end of 0 gives nothing |
| `Filter.Page` | frontend/src/hooks/useFilter.ts:30-36 | a page, for any page number, is a run of at most six consecutive matches; `PageContents` and `PagesReassemble` say which run |
| `Filter.TotalPages` | frontend/src/hooks/useFilter.ts:38 | the page count is the least count whose six-item pages hold every match; it is 0 exactly when nothing matches |
| `Filter.PageContents` | frontend/src/hooks/useFilter.ts:30-36 | page p ≥ 1 has `min(6, max(0, n − 6(p−1)))` items, and they are the matches from position `6(p−1)` on |
| `Filter.PageNonEmptyIff` | frontend/src/hooks/useFilter.ts:30-38 | for p ≥ 0, a page is non-empty iff 1 ≤ p ≤ `totalPages` |
| `Filter.NegativePageOnShortList` | frontend/src/hooks/useFilter.ts:31-34 | with seven to eleven matches, page -1 shows every match but the last six |
| `Filter.NegativePageCountsFromEnd` | frontend/src/hooks/useFilter.ts:31-34 | a negative page counts from the end and holds six items when the list is long enough |
| `Filter.PagesUpToIsPrefix` | frontend/src/hooks/useFilter.ts:30-36 | pages 1..k in order are the first `6k` matches |
| `Filter.PagesReassemble` | frontend/src/hooks/useFilter.ts:30-38 | concatenating pages 1..`totalPages` in order gives back the filtered list |
| `Filter.SetSearchTerm` | frontend/src/hooks/useFilter.ts:12-14 | setting a different search term resets the page to 1 and keeps the category; setting the same term changes nothing |
| `Filter.ToggleCategory` | frontend/src/hooks/useFilter.ts:40-42 | toggling the selected category clears it, otherwise it becomes selected; the selection always changes, so the page resets to 1 |
| `Filter.ClearFilters` | frontend/src/hooks/useFilter.ts:44-47 | the search becomes empty and nothing is selected; the page resets only when something was cleared |
| `Filter.SetCurrentPage` | frontend/src/hooks/useFilter.ts:9 | only the page changes |
| `Filter.ToggleTwice` | frontend/src/hooks/useFilter.ts:40-42 | toggling c twice restores the selection iff it was empty or c; the result has a selection iff the selection was c |
| `Filter.ViewOf` | frontend/src/hooks/useFilter.ts:17-38 | the shown page comes from the filtered list, which is a subsequence of the assets, and the page count covers it |
| `Filter.ClearFiltersShowsAll` | frontend/src/hooks/useFilter.ts:44-47 | after clearing, every asset is listed and the page count is that of the whole list |
| `Filter.MountShowsFirstPage` | frontend/src/hooks/useFilter.ts:7-9 | in the initial state (no search, no category, page 1) every asset is listed and the first six are shown |
| `Filter.SearchShowsFirstPage` | frontend/src/hooks/useFilter.ts:12-14 | after the search changes, the shown page is the first six of the new matches |
| `Collection.InitialForm` | frontend/src/hooks/useAssets.ts:6-11 | the empty draft has no id, empty name and serial number, category Other, and a `YYYY-MM-DD` date text that reads back as the load day |
| `Collection.Mount` | frontend/src/hooks/useAssets.ts:6-17 | the state the hooks start in, before the mount effect's first fetch: the list is empty, nothing is edited, the loading flag is still false, and the draft is the initial form, whose date reads back as the load day |
| `Collection.ErrorMessage` | frontend/src/hooks/useAssets.ts:49-51 | the message is the body's non-empty `error`, else its non-empty `message`, else `An error occurred`; it is never empty and always comes from one of those three |
| `Collection.FetchAssets` | frontend/src/hooks/useAssets.ts:19-29 | one list call; on success the list is replaced, on failure it is kept and an error is reported; loading ends false; the draft is untouched |
| `Collection.SubmitCall` | frontend/src/hooks/useAssets.ts:38-44 | the call is an update of the edited id with the draft iff an id is being edited, otherwise a create of the draft |
| `Collection.Submit` | frontend/src/hooks/useAssets.ts:35-54 | exactly one save call comes first; on success the draft resets to the initial form kept since mount, editing ends and one list call follows, which replaces the list and reports nothing, or keeps the list and reports only the fetch error; on failure the state is unchanged and the server's message is reported |
| `Collection.HandleEdit` | frontend/src/hooks/useAssets.ts:56-65 | the draft takes the asset's fields without its id; the edited id is the asset's id when it is non-empty, else none; nothing else changes |
| `Collection.HandleCancelEdit` | frontend/src/hooks/useAssets.ts:78-81 | the draft is the initial form kept since mount and nothing is being edited; the list and the loading flag are kept |
| `Collection.SetFormData` | frontend/src/hooks/useAssets.ts:15 | only the draft changes |
| `Collection.HandleDelete` | frontend/src/hooks/useAssets.ts:67-76 | unconfirmed: no call and no change; confirmed: one delete call, and on success a list call that replaces the list and reports nothing, or keeps the list and reports only the fetch error; on failure the state is kept and the delete error reported; the draft and edited id are never touched |
| `Collection.EditThenCancel` | frontend/src/hooks/useAssets.ts:56-81 | edit then cancel equals cancel alone, leaves nothing being edited and makes no call |
| `Collection.EditThenSubmitUpdates` | frontend/src/hooks/useAssets.ts:38-63 | submitting right after editing a stored asset updates that id with the asset's own fields |
| `Collection.SuccessfulSubmitLeavesEditMode` | frontend/src/hooks/useAssets.ts:45-46 | after a successful submit, the next submit is a create of the initial form |
| `Collection.HandlersKeepInitialForm` | frontend/src/hooks/useAssets.ts:6-11 | no handler changes the initial form, so every reset goes back to the load day's draft, as a module constant does |
| `Collection.HandlersKeepEditingWellFormed` | frontend/src/hooks/useAssets.ts:63 | no handler ever makes the edited id the empty string |
| `Calendar.PrevDay` | frontend/src/components/Dashboard.tsx:23-24 | the day before a valid date is a valid, earlier date |
| `Calendar.NextDay` | frontend/src/components/Dashboard.tsx:23-24 | the day after a valid date is a valid, later date |
| `Calendar.PrevNextInverse` | frontend/src/components/Dashboard.tsx:23-24 | stepping a day back and a day forward are inverse |
| `Calendar.NextDayIsImmediate` | frontend/src/components/Dashboard.tsx:23-24 | no valid date lies strictly between a date and the next day |
| `Calendar.DaysBefore` | frontend/src/components/Dashboard.tsx:23-24 | going back n > 0 days gives a valid, earlier date |
| `Calendar.ParseIsoDate` | frontend/src/components/Dashboard.tsx:19 | parsing gives a valid date of a 10-character text, or none (an invalid date) |
| `Calendar.FormatIsoDate` | frontend/src/hooks/useAssets.ts:9 | a date's `YYYY-MM-DD` text has the ISO shape |
| `Calendar.ParseFormatRoundTrip` | frontend/src/hooks/useAssets.ts:9 | parsing the ISO text of a date gives the date back |
| `Calendar.PadDigitsOfValue` | frontend/src/hooks/useAssets.ts:9 | padding a digit string's value to the string's width writes the string back |
| `Calendar.FormatParseRoundTrip` | frontend/src/components/Dashboard.tsx:19 | a text that parses is exactly the ISO text of its date: no other spelling is accepted |
| `Dashboard.DateOf` | frontend/src/components/Dashboard.tsx:19-31 | a date read from an asset is valid with a four-digit year; a `null` date is never invalid (it is the epoch) |
| `Dashboard.DateOfReadsIsoText` | frontend/src/components/Dashboard.tsx:19 | a date text the dashboard reads is the ISO text of the date read |
| `Dashboard.WeekStart` | frontend/src/components/Dashboard.tsx:23-24 | the week window starts at a valid date strictly before now |
| `Dashboard.WeekBoundary` | frontend/src/components/Dashboard.tsx:23-27 | the day seven days back is outside the week window and the day after it is inside |
| `Dashboard.DaysBeforeWithinMonth` | frontend/src/components/Dashboard.tsx:23-24 | going back fewer days than the day of the month stays in the month |
| `Dashboard.CountWhere` | frontend/src/components/Dashboard.tsx:18-27 | `filter(...).length` is at most the total; it is the total iff all match and 0 iff none match |
| `Dashboard.CountAppend` | frontend/src/components/Dashboard.tsx:18-27 | counting over a concatenation adds the counts |
| `Dashboard.CountComplement` | frontend/src/components/Dashboard.tsx:18-21 | the counts of a predicate and of its negation add up to the total |
| `Dashboard.ReduceLatest` | frontend/src/components/Dashboard.tsx:30-32 | the reduce ends on a position of the list, never before its starting winner |
| `Dashboard.Latest` | frontend/src/components/Dashboard.tsx:29-33 | the latest asset is absent iff the list is empty, and is otherwise an element of the list |
| `Dashboard.ReduceKeepsFirstLatest` | frontend/src/components/Dashboard.tsx:30-32 | with valid dates, the reduce keeps the first asset of maximal date among those seen |
| `Dashboard.ReduceStep` | frontend/src/components/Dashboard.tsx:31 | one step of the reduce, replacing the winner only on a strictly newer date, keeps the first asset of maximal date |
| `Dashboard.LatestIsFirstMaximal` | frontend/src/components/Dashboard.tsx:30-32 | with valid dates, no asset has a later date than the latest one, and every asset before it has a strictly earlier date, so ties go to the first |
| `Dashboard.NullDateLosesToLaterDate` | frontend/src/components/Dashboard.tsx:30-32 | an asset without a date counts as dated at the epoch, so an asset with a later date is the latest, in either order |
| `Dashboard.InvalidFirstDateWins` | frontend/src/components/Dashboard.tsx:31 | if the first asset's date is invalid, nothing compares newer and it stays the latest |
| `Dashboard.Summarize` | frontend/src/components/Dashboard.tsx:14-33 | total is the list size; both counts are at most the total; latest is absent iff the total is 0 |
| `Dashboard.LatestLabel` | frontend/src/components/Dashboard.tsx:59 | the card shows `N/A` when there is no latest asset, else its name |
| `Dashboard.MonthPartition` | frontend/src/components/Dashboard.tsx:16-21 | this month's count plus the count outside this month is the total |
| `Dashboard.TodayCountsTwice` | frontend/src/components/Dashboard.tsx:23-27 | an asset dated now or later counts in the week; dated now, also in the month |
| `Dashboard.OldAssetCountsNowhere` | frontend/src/components/Dashboard.tsx:16-27 | more than seven days into the month, an asset dated before the month counts in neither window |
| `Entity.Trim` | backend/src/main/java/com/java/assets/model/Asset.java:24 | the trimmed text is a slice of the original with only characters up to U+0020 outside it, and it starts and ends with a character above U+0020; these determine it |
| `Entity.NotBlankIffTrimNonEmpty` | backend/src/main/java/com/java/assets/model/Asset.java:24 | "contains a character above U+0020" agrees with "the trimmed text is non-empty" |
| `Entity.Utf16Length` | backend/src/main/java/com/java/assets/model/Asset.java:25 | the length `@Size` checks is 2 for one character above U+FFFF and 1 for any other character; it lies between the character count and twice it, and equals the character count when no character is above U+FFFF |
| `Entity.Utf16LengthAppend` | backend/src/main/java/com/java/assets/model/Asset.java:25 | code-unit lengths add over concatenation, so with the single-character case they fix the length of every string |
| `Entity.ValidAsset` | backend/src/main/java/com/java/assets/model/Asset.java:24-33 | an asset meets its declared constraints iff its name and serial number trim to something, its name is 2 to 100 code units long and its date is present; a valid name is 1 to 100 characters |
| `Entity.SizeCountsCodeUnits` | backend/src/main/java/com/java/assets/model/Asset.java:25 | a one-character name above U+FFFF has size 2, so it meets `min = 2` |
| `Entity.SizeCountsBlanks` | backend/src/main/java/com/java/assets/model/Asset.java:24-25 | the size bound counts surrounding blanks: `" a"` passes size with one trimmed character, and `"  "` passes size but is blank |
| `Entity.FindBySerialNo` | backend/src/main/java/com/java/assets/repository/AssetRepository.java:17 | on a store with unique serial numbers, the lookup finds a holder iff the serial number is taken, and the id found holds it |
| `Entity.FindAll` | backend/src/main/java/com/java/assets/service/AssetServiceImpl.java:23-26 | every stored document is listed, and nothing else is |
| `Entity.MessageNamesSubject` | backend/src/main/java/com/java/assets/exception/AssetNotFoundException.java:5-7 | a not-found message contains the id, and a duplicate message contains the serial number |
| `ServiceImpl.GetAssetById` | backend/src/main/java/com/java/assets/service/AssetServiceImpl.java:29-33 | the stored asset iff the id is present, else not-found for that id |
| `ServiceImpl.AddAsset` | backend/src/main/java/com/java/assets/service/AssetServiceImpl.java:36-45 | a taken serial number is refused as a duplicate with the store unchanged; otherwise the asset is saved under the new id, returned, and no other entry changes |
| `ServiceImpl.UpdateAsset` | backend/src/main/java/com/java/assets/service/AssetServiceImpl.java:48-71 | missing id: not-found, store unchanged; a changed serial number that is taken: duplicate, store unchanged; success iff neither; then name, serial number and date are overwritten, the category only when one is sent, the id is kept, and only that entry changes |
| `ServiceImpl.DeleteAsset` | backend/src/main/java/com/java/assets/service/AssetServiceImpl.java:74-80 | missing id: not-found with nothing removed; otherwise exactly that key is removed |
| `ServiceImpl.AddPreservesInvariant` | backend/src/main/java/com/java/assets/service/AssetServiceImpl.java:38-44 | adding keeps ids matching keys and serial numbers unique |
| `ServiceImpl.UpdatePreservesInvariant` | backend/src/main/java/com/java/assets/service/AssetServiceImpl.java:53-70 | updating keeps ids matching keys and serial numbers unique |
| `ServiceImpl.DeletePreservesInvariant` | backend/src/main/java/com/java/assets/service/AssetServiceImpl.java:74-80 | deleting keeps ids matching keys and serial numbers unique |
| `ServiceImpl.SameSerialUpdateSucceeds` | backend/src/main/java/com/java/assets/service/AssetServiceImpl.java:54 | an update that keeps the serial number succeeds whenever the id exists |
| `LegacyService.GetAllAssets` | backend/src/main/java/com/java/assets/service/AssetService.java:27-29 | every stored document is listed, and nothing else is |
| `LegacyService.GetAssetById` | backend/src/main/java/com/java/assets/service/AssetService.java:90-92 | the result is present iff the id is stored, and it is the stored asset; nothing is thrown |
| `LegacyService.AddAsset` | backend/src/main/java/com/java/assets/service/AssetService.java:34-45 | a taken serial number is a duplicate error with nothing saved; otherwise the asset is saved under the new id |
| `LegacyService.DeleteAsset` | backend/src/main/java/com/java/assets/service/AssetService.java:50-55 | missing id: a runtime error `Asset not found with id: <id>` with nothing removed; otherwise exactly that key is removed |
| `LegacyService.UpdateAsset` | backend/src/main/java/com/java/assets/service/AssetService.java:60-78 | missing id: runtime not-found; every refusal leaves the store unchanged and for a present id is a duplicate; on success name, serial number and date are overwritten and the category is never changed; an unchanged serial number always succeeds |
| `LegacyService.UpdateRefusalIff` | backend/src/main/java/com/java/assets/service/AssetService.java:65-71 | for a changed serial number, the update is refused iff some stored document holds it; the same-id exclusion never applies |
| `LegacyService.VariantsAgreeOnUpdate` | backend/src/main/java/com/java/assets/service/AssetService.java:60-78 | the two services accept the same updates; the results differ only in the category, and are equal when no new category is sent |
| `LegacyService.AddPreservesInvariant` | backend/src/main/java/com/java/assets/service/AssetService.java:36-44 | adding keeps ids matching keys and serial numbers unique |
| `LegacyService.UpdatePreservesInvariant` | backend/src/main/java/com/java/assets/service/AssetService.java:65-75 | updating keeps ids matching keys and serial numbers unique |
| `LegacyService.DeletePreservesInvariant` | backend/src/main/java/com/java/assets/service/AssetService.java:50-55 | deleting keeps ids matching keys and serial numbers unique |
| `Controller.PostResponse` | backend/src/main/java/com/java/assets/controller/AssetController.java:43-57 | 201 with the saved asset iff success; 409 with `{"error": message}` iff duplicate; 500 with the fixed text iff any other failure |
| `Controller.DeleteResponse` | backend/src/main/java/com/java/assets/controller/AssetController.java:63-73 | 204 with no body iff success; any failure is 404 with `{"error": message}` |
| `Controller.PutResponse` | backend/src/main/java/com/java/assets/controller/AssetController.java:79-93 | 200 with the asset iff success; 409 iff duplicate (checked before the generic catch); 404 iff any other failure; failures carry their message |
| `Controller.GetByIdResponse` | backend/src/main/java/com/java/assets/controller/AssetController.java:112-117 | 200 with the asset iff present, else a bodiless 404 |
| `Controller.GetAll` | backend/src/main/java/com/java/assets/controller/AssetController.java:33-37 | always 200 with every stored asset; the store is unchanged |
| `Controller.GetById` | backend/src/main/java/com/java/assets/controller/AssetController.java:112-117 | 200 iff the id is stored, with that asset; the store is unchanged |
| `Controller.Post` | backend/src/main/java/com/java/assets/controller/AssetController.java:43-57 | 201 iff the serial number is free, 409 iff it is taken, with the store unchanged; the store invariant is kept |
| `Controller.Put` | backend/src/main/java/com/java/assets/controller/AssetController.java:79-93 | 404 iff the id is missing; 409 iff a changed serial number is taken; every non-200 answer leaves the store unchanged; the store invariant is kept |
| `Controller.Delete` | backend/src/main/java/com/java/assets/controller/AssetController.java:63-73 | 204 iff the id is stored, 404 iff not; exactly that key is removed and every other entry is unchanged |
| `Controller.Handle` | backend/src/main/java/com/java/assets/controller/AssetController.java:33-117 | any single request keeps ids equal to keys and serial numbers unique; a GET leaves the store unchanged |
| `Controller.Serve` | backend/src/main/java/com/java/assets/controller/AssetController.java:33-117 | any sequence of requests served one at a time keeps the store invariant; a sequence of GETs changes nothing |
| `Controller.ServedFromEmpty` | backend/src/main/java/com/java/assets/service/AssetService.java:34-78 | the empty collection meets the invariant, so every history served from it keeps serial numbers unique without relying on a database index |
| `Controller.PostNeverServerError` | backend/src/main/java/com/java/assets/controller/AssetController.java:52-56 | through the older service, a create is only ever answered with 201 or 409 |
| `Controller.ConstraintsNotEnforced` | backend/src/main/java/com/java/assets/controller/AssetController.java:44 | a create with a blank name, a blank serial number and no date breaks the declared constraints but is still stored with 201 |
| `EndToEnd.ClientView` | frontend/src/hooks/useAssets.ts:49-50 | of the bodies the controller itself writes, only `{"error": …}` gives the client an `error` field, and none has a `message` field |
| `EndToEnd.MessageNonEmpty` | backend/src/main/java/com/java/assets/exception/AssetNotFoundException.java:5-7 | no failure message is empty |
| `EndToEnd.RefusedUpdateMessage` | frontend/src/hooks/useAssets.ts:48-53 | a refused update shows the server's duplicate text for a stored id, or its not-found text otherwise |
| `EndToEnd.RefusedCreateMessage` | frontend/src/hooks/useAssets.ts:48-53 | a create refused for a taken serial number shows the duplicate text that names it |

## Left out

- Toast notifications are left out as side effects. `Step.failure` keeps
  only the error text, without the `❌` suffix. Success toasts are not
  modelled.
- React mechanics are left out: hook scheduling, batching and memoisation,
  the mount effect, `window.scrollTo`. The `window.confirm` answer is the
  `confirmed` parameter. The page-reset effect is folded into each
  transition.
- `Collection.Mount` is the state before the mount effect runs. The effect
  then calls `fetchAssets` at once, which is `Collection.FetchAssets` applied
  to it. The source's `loading = true` straight after mount falls in the
  unobservable in-flight state noted next.
- `Collection.FetchAssets`: only the state after the call settles is
  modelled. The `loading = true` state while the call is in flight is not
  observable in the model.
- Two overlapping submits can race. This is not modelled, because calls are
  sequential steps.
- `Text.Lower`: lowers ASCII letters only. Full Unicode case mapping is not
  modelled, and the same function is applied to both sides.
- `Calendar.ParseIsoDate`: accepts only `YYYY-MM-DD` with an in-range month
  and day. Engine-specific leniency (other formats, day rollover) is not
  modelled.
- `Dashboard.Summarize` works at day granularity, with `now` given as a
  date. The source compares each date, which is midnight UTC, against a "one
  week ago" that keeps the current time of day. So the day seven days back
  is in the source's window only at exactly midnight UTC. The model always
  leaves it out (`Dashboard.WeekBoundary`), which matches every other instant
  in UTC. Other time zones move the boundary and the month by up to a day,
  and they are not modelled.
- `Dashboard.LatestIsFirstMaximal`: the maximality property is stated only
  when every date is valid. With invalid dates the source's comparisons are
  all false (see `Dashboard.InvalidFirstDateWins`).
- The back-end services require `Entity.StoreInvariant`: ids equal keys and
  serial numbers are unique. The model justifies it by the services'
  own checks, not by the database. Every service call keeps it (the six
  `*PreservesInvariant` lemmas), so requests served one at a time from an
  empty collection keep it too (`Controller.ServedFromEmpty`).
  `@Indexed(unique = true)` creates a unique index only when automatic index
  creation is switched on, which nothing in the repository does. So two
  concurrent creates with the same serial number can both pass the check and
  break the invariant. After that, `findBySerialNo` would fail with a
  data-access exception. Concurrent requests and that failure path are not
  modelled.
- `ServiceImpl.AddAsset` and `LegacyService.AddAsset`: saving always
  inserts under a fresh database-assigned id. MongoDB's upsert when the
  request carries an id is not modelled.
- A `null` name or serial number is not modelled: `Entity.Asset` holds both
  as strings. The date and category may be absent. In the source a `null`
  name is not an error on the server. A create without a name is stored and
  answered with 201, because `addAsset` only looks up the serial number and
  saves. An update copies a `null` name without reading it. The one
  `NullPointerException` is on update, when the stored serial number is
  `null`: `getSerialNo().equals(...)` (AssetService.java:65,
  AssetServiceImpl.java:54). A stored `null` name reaches the client, where
  the filter's `asset.name.toLowerCase()` (useFilter.ts:20) throws while
  rendering.
- `Entity.FindAll`: `findAll()` returns a `List`, and the model returns a
  set. MongoDB's natural order is unspecified. The client's page order and
  its tie-breaking for the latest asset follow whatever order arrives, which
  `Collection` takes as a given sequence.
- `LegacyService.GetAllAssets`: a set for the same reason as `Entity.FindAll`.
- `Controller.GetAll`: a set body for the same reason as `Entity.FindAll`.
- `Collection.InitialForm`: `today` must have a four-digit year, the range
  `Calendar.FormatIsoDate` covers. `toISOString` writes other years in a
  six-digit signed form, which is not modelled.
- `Dashboard.DateOf` reads a `null` date as 1970-01-01, the UTC day of time
  value 0. In a time zone west of UTC the source's local `getMonth()` sees
  31 December 1969 instead. This is part of the time-zone gap noted under
  `Dashboard.Summarize`.
- Left out as framework glue:
  - the paginated endpoint and `getAssetsPaginated` / `getAllAssetsPaginated`, which delegate to Spring Data;
  - `GlobalExceptionHandler`: the controller's own catches shadow it for the exceptions the services throw. Two kinds of failure do reach it as a 500 with a `message` field, and they are not modelled: a request body that cannot be bound (an `assignDate` that is not a date, say), and a failure in the GET handlers, which have no `try`;
  - `LoggingAspect`, `SwaggerConfig` and `AssetsApplication`.
- Left out as presentation and transport: the UI components, dark mode, the
  export utilities, and the HTTP client layer. The HTTP client is reduced to
  the `Call` values and their outcomes.

=== FILE: asset_types.dfy ===
/**
  The front end's asset record and the static category catalog with its two
  lookups (frontend/src/types/Asset.ts).
 */
module AssetTypes {
  import opened Wrappers

  /** The six category constants; `Value` is the string each one stands for at run time. */
  datatype AssetCategory = Computer | Peripheral | Monitor | Network | Mobile | Other
  {
    function Value(): string
    {
      match this
      case Computer => "Computer"
      case Peripheral => "Peripheral"
      case Monitor => "Monitor"
      case Network => "Network"
      case Mobile => "Mobile"
      case Other => "Other"
    }
  }

  /**
    An asset as the client holds it. `id` is absent on a draft. `assignDate`
    is the ISO text the server sends, and `category` is whatever string the
    server stored: the client never checks that it is one of the six values.
    The server does not require either of them, so both may arrive as JSON
    `null`, which is `None` here.
   */
  datatype Asset = Asset(id: Option<string>, name: string, serialNo: string, assignDate: Option<string>, category: Option<string>)

  /** One row of the catalog: the value it is looked up by, its display label and its colour (`label` in the source). */
  datatype CategoryConfig = CategoryConfig(value: AssetCategory, labelText: string, color: string)

  /** The catalog in display order. */
  const Categories: seq<CategoryConfig> := [
    CategoryConfig(Computer, "\U{1F4BB} Computer", "#667eea"),
    CategoryConfig(Peripheral, "\U{1F5B1}\U{FE0F} Peripheral", "#f093fb"),
    CategoryConfig(Monitor, "\U{1F5A5}\U{FE0F} Monitor", "#4facfe"),
    CategoryConfig(Network, "\U{1F310} Network", "#43e97b"),
    CategoryConfig(Mobile, "\U{1F4F1} Mobile", "#fa709a"),
    CategoryConfig(Other, "\U{1F4E6} Other", "#a8edea")
  ]

  /** The colour shown for a category that is not in the catalog. */
  const FallbackColor: string := "#999"

  /** The label shown for a category that is not in the catalog. */
  const FallbackLabel: string := "\U{1F4E6} Other"

  /** The catalog row at position `i` is looked up by `key`. */
  predicate RowMatches(table: seq<CategoryConfig>, i: int, key: Option<string>)
    requires 0 <= i < |table|
  {
    key == Some(table[i].value.Value())
  }

  /** `table.find(c => c.value === key)`: the first row whose value is `key`, if any. */
  function Find(table: seq<CategoryConfig>, key: Option<string>): (r: Option<nat>)
    ensures r.Some? ==> r.value < |table| && RowMatches(table, r.value, key)
    ensures r.Some? ==> forall j :: 0 <= j < r.value ==> !RowMatches(table, j, key)
    ensures r.None? <==> forall j :: 0 <= j < |table| ==> !RowMatches(table, j, key)
  {
    if table == [] then None
    else if key == Some(table[0].value.Value()) then
      assert RowMatches(table, 0, key);
      Some(0)
    else
      assert forall j :: 1 <= j < |table| ==> RowMatches(table, j, key) == RowMatches(table[1..], j - 1, key);
      match Find(table[1..], key)
      case None => None
      case Some(k) => assert RowMatches(table, k + 1, key); Some(k + 1)
  }

  /** The catalog has one row per category constant, with pairwise distinct values. */
  lemma CatalogIsComplete()
    ensures |Categories| == 6
    ensures forall i, j :: 0 <= i < j < |Categories| ==> Categories[i].value != Categories[j].value
    ensures forall i, j :: 0 <= i < j < |Categories| ==> Categories[i].value.Value() != Categories[j].value.Value()
    ensures forall c: AssetCategory :: CatalogIndex(c) < |Categories| && Categories[CatalogIndex(c)].value == c
  {
  }

  /** The position of a category's row in the catalog. */
  function CatalogIndex(c: AssetCategory): nat
  {
    match c
    case Computer => 0
    case Peripheral => 1
    case Monitor => 2
    case Network => 3
    case Mobile => 4
    case Other => 5
  }

  /** Distinct constants stand for distinct strings. */
  lemma ValueInjective(a: AssetCategory, b: AssetCategory)
    ensures a.Value() == b.Value() <==> a == b
  {
  }

  /**
    `getCategoryColor`: the colour of the catalog row whose value is
    `category`, or the fallback colour when there is none (including when
    `category` is absent). It never fails.
   */
  function GetCategoryColor(category: Option<string>): (r: string)
    ensures forall i :: 0 <= i < |Categories| && RowMatches(Categories, i, category) ==> r == Categories[i].color
    ensures (forall i :: 0 <= i < |Categories| ==> !RowMatches(Categories, i, category)) ==> r == FallbackColor
  {
    CatalogIsComplete();
    match Find(Categories, category)
    case Some(i) => Categories[i].color
    case None => FallbackColor
  }

  /**
    `getCategoryLabel`: the label of the catalog row whose value is
    `category`, or the fallback label when there is none.
   */
  function GetCategoryLabel(category: Option<string>): (r: string)
    ensures forall i :: 0 <= i < |Categories| && RowMatches(Categories, i, category) ==> r == Categories[i].labelText
    ensures (forall i :: 0 <= i < |Categories| ==> !RowMatches(Categories, i, category)) ==> r == FallbackLabel
  {
    CatalogIsComplete();
    match Find(Categories, category)
    case Some(i) => Categories[i].labelText
    case None => FallbackLabel
  }

  /** Every category constant resolves to its own row's colour and label. */
  lemma LookupOfConstant(c: AssetCategory, i: nat)
    requires i < |Categories| && Categories[i].value == c
    ensures GetCategoryColor(Some(c.Value())) == Categories[i].color
    ensures GetCategoryLabel(Some(c.Value())) == Categories[i].labelText
  {
    assert RowMatches(Categories, i, Some(c.Value()));
  }

  /**
    The two fallbacks disagree about `Other`: an unknown category gets the
    `Other` label but not the `Other` colour.
   */
  lemma FallbacksAgainstOther(category: Option<string>)
    requires forall i :: 0 <= i < |Categories| ==> !RowMatches(Categories, i, category)
    ensures GetCategoryLabel(category) == Categories[5].labelText
    ensures Categories[5].value == Other
    ensures GetCategoryColor(category) != Categories[5].color
  {
  }
}

=== FILE: calendar.dfy ===
/**
  Calendar dates as the day-granular key the dashboard compares: proleptic
  Gregorian `(year, month, day)`, the ISO `YYYY-MM-DD` text the server sends,
  and stepping one day back or forward.
 */
module Calendar {
  import opened Wrappers

  datatype Date = Date(year: int, month: int, day: int)

  predicate IsLeapYear(y: int)
  {
    y % 4 == 0 && (y % 100 != 0 || y % 400 == 0)
  }

  function DaysInMonth(y: int, m: int): (r: int)
    requires 1 <= m <= 12
    ensures 28 <= r <= 31
  {
    if m == 2 then (if IsLeapYear(y) then 29 else 28)
    else if m == 4 || m == 6 || m == 9 || m == 11 then 30
    else 31
  }

  predicate Valid(d: Date)
  {
    1 <= d.month <= 12 && 1 <= d.day <= DaysInMonth(d.year, d.month)
  }

  /** `a` is a strictly earlier day than `b`. */
  predicate Before(a: Date, b: Date)
  {
    a.year < b.year
    || (a.year == b.year && (a.month < b.month || (a.month == b.month && a.day < b.day)))
  }

  /** The previous calendar day. */
  function PrevDay(d: Date): (r: Date)
    requires Valid(d)
    ensures Valid(r) && Before(r, d)
  {
    if d.day > 1 then d.(day := d.day - 1)
    else if d.month > 1 then Date(d.year, d.month - 1, DaysInMonth(d.year, d.month - 1))
    else Date(d.year - 1, 12, 31)
  }

  /** The next calendar day. */
  function NextDay(d: Date): (r: Date)
    requires Valid(d)
    ensures Valid(r) && Before(d, r)
  {
    if d.day < DaysInMonth(d.year, d.month) then d.(day := d.day + 1)
    else if d.month < 12 then Date(d.year, d.month + 1, 1)
    else Date(d.year + 1, 1, 1)
  }

  /** Stepping back a day and forward a day are inverse on valid dates. */
  lemma PrevNextInverse(d: Date)
    requires Valid(d)
    ensures NextDay(PrevDay(d)) == d
    ensures PrevDay(NextDay(d)) == d
  {
  }

  /** No valid date lies strictly between a day and the day after it. */
  lemma NextDayIsImmediate(d: Date, e: Date)
    requires Valid(d) && Valid(e) && Before(d, e)
    ensures !Before(e, NextDay(d))
  {
  }

  /** `n` days earlier. */
  function DaysBefore(d: Date, n: nat): (r: Date)
    requires Valid(d)
    ensures Valid(r)
    ensures n > 0 ==> Before(r, d)
    ensures n == 0 ==> r == d
  {
    if n == 0 then d
    else
      var r := PrevDay(DaysBefore(d, n - 1));
      assert n - 1 > 0 ==> Before(DaysBefore(d, n - 1), d);
      r
  }

  // ---------------------------------------------------------------------------
  // ISO `YYYY-MM-DD` text
  // ---------------------------------------------------------------------------

  predicate IsDigit(c: char)
  {
    '0' <= c <= '9'
  }

  /** The value of a string of decimal digits. */
  function DigitsValue(s: string): (n: nat)
    requires forall i :: 0 <= i < |s| ==> IsDigit(s[i])
  {
    if s == [] then 0
    else
      assert IsDigit(s[|s| - 1]);
      DigitsValue(s[..|s| - 1]) * 10 + (s[|s| - 1] as int - '0' as int)
  }

  function Pow10(w: nat): (r: nat)
    ensures r >= 1
  {
    if w == 0 then 1 else 10 * Pow10(w - 1)
  }

  /** `n` written with exactly `w` decimal digits, padded with leading zeros. */
  function PadDigits(n: nat, w: nat): (s: string)
    ensures |s| == w
    ensures forall i :: 0 <= i < |s| ==> IsDigit(s[i])
  {
    if w == 0 then [] else PadDigits(n / 10, w - 1) + [('0' as int + n % 10) as char]
  }

  /** Reading back a padded number gives the number, when it fits in the width. */
  lemma {:induction false} DigitsRoundTrip(n: nat, w: nat)
    requires n < Pow10(w)
    ensures DigitsValue(PadDigits(n, w)) == n
  {
    if w > 0 {
      var s := PadDigits(n, w);
      assert s[..|s| - 1] == PadDigits(n / 10, w - 1);
      DigitsRoundTrip(n / 10, w - 1);
    }
  }

  predicate IsoShaped(s: string)
  {
    |s| == 10 && s[4] == '-' && s[7] == '-'
    && (forall i :: 0 <= i < 4 ==> IsDigit(s[i]))
    && IsDigit(s[5]) && IsDigit(s[6]) && IsDigit(s[8]) && IsDigit(s[9])
  }

  /**
    Parses `YYYY-MM-DD`. Any other text, or a month or day out of range, is an
    invalid date (`None`), on which every comparison is false.
   */
  function ParseIsoDate(s: string): (r: Option<Date>)
    ensures r.Some? ==> Valid(r.value) && 0 <= r.value.year < 10000
    ensures r.Some? ==> |s| == 10
  {
    if IsoShaped(s) then
      var d := Date(DigitsValue(s[0..4]), DigitsValue(s[5..7]), DigitsValue(s[8..10]));
      assert DigitsValue(s[0..4]) < 10000 by { DigitsBound(s[0..4]); }
      if Valid(d) then Some(d) else None
    else None
  }

  lemma {:induction false} DigitsBound(s: string)
    requires forall i :: 0 <= i < |s| ==> IsDigit(s[i])
    ensures DigitsValue(s) < Pow10(|s|)
  {
    if s != [] {
      DigitsBound(s[..|s| - 1]);
    }
  }

  /** Padding a digit string's value to the string's own width writes the string back. */
  lemma {:induction false} PadDigitsOfValue(x: string)
    requires forall i :: 0 <= i < |x| ==> IsDigit(x[i])
    ensures PadDigits(DigitsValue(x), |x|) == x
  {
    if x != [] {
      var init := x[..|x| - 1];
      var c := x[|x| - 1];
      assert IsDigit(c);
      PadDigitsOfValue(init);
      var v := DigitsValue(x);
      assert v / 10 == DigitsValue(init) && v % 10 == c as int - '0' as int;
      assert x == init + [c];
    }
  }

  /** A valid date with a four-digit year: the dates `FormatIsoDate` covers. */
  predicate Formattable(d: Date)
  {
    0 <= d.year < 10000 && Valid(d)
  }

  /** A date's ISO text, as `toISOString().split('T')[0]` writes it for years 0 to 9999. */
  function FormatIsoDate(d: Date): (s: string)
    requires Formattable(d)
    ensures IsoShaped(s)
  {
    PadDigits(d.year, 4) + "-" + PadDigits(d.month, 2) + "-" + PadDigits(d.day, 2)
  }

  /** Formatting a date and parsing the text gives the date back. */
  lemma ParseFormatRoundTrip(d: Date)
    requires Formattable(d)
    ensures ParseIsoDate(FormatIsoDate(d)) == Some(d)
  {
    var s := FormatIsoDate(d);
    assert s[0..4] == PadDigits(d.year, 4);
    assert s[5..7] == PadDigits(d.month, 2);
    assert s[8..10] == PadDigits(d.day, 2);
    DigitsRoundTrip(d.year, 4);
    DigitsRoundTrip(d.month, 2);
    DigitsRoundTrip(d.day, 2);
  }

  /** A text that parses is exactly the ISO text of the date it parses to: no other spelling is accepted. */
  lemma FormatParseRoundTrip(s: string)
    requires ParseIsoDate(s).Some?
    ensures Formattable(ParseIsoDate(s).value)
    ensures FormatIsoDate(ParseIsoDate(s).value) == s
  {
    assert IsoShaped(s);
    PadDigitsOfValue(s[0..4]);
    PadDigitsOfValue(s[5..7]);
    PadDigitsOfValue(s[8..10]);
    assert s == s[0..4] + "-" + s[5..7] + "-" + s[8..10];
  }
}

=== FILE: collection.dfy ===
/**
  The client's asset collection state (frontend/src/hooks/useAssets.ts). Each
  handler is a transition of `ClientState`; every remote call it makes is
  listed in the step's `calls`, and its outcome is a parameter.
 */
module Collection {
  import opened Wrappers
  import opened AssetTypes
  import opened Calendar

  /** The fields of a failed call's response body that the client reads (`error`, `message`); `None` when absent. */
  datatype ErrorBody = ErrorBody(error: Option<string>, message: Option<string>)

  /** The outcome of one remote call. */
  type Outcome<T> = Result<T, ErrorBody>

  /** A remote call to the asset store. */
  datatype Call = ListAll | Create(draft: Asset) | Update(id: string, draft: Asset) | Remove(id: string)

  /**
    The hook's state: the server's list, the form draft, the asset being
    edited and the loading flag. `initialForm` is `INITIAL_FORM`, a module
    constant computed once when the module loads: every reset goes back to
    it, whatever the date is by then.
   */
  datatype ClientState = ClientState(assets: seq<Asset>, formData: Asset, editingId: Option<string>, loading: bool,
                                     initialForm: Asset)

  /**
    One handler run: the resulting state, the remote calls made in order, and
    the error reported to the user, if any.
   */
  datatype Step = Step(state: ClientState, calls: seq<Call>, failure: Option<string>)

  const GenericError: string := "An error occurred"
  const FetchFailed: string := "Failed to fetch assets"
  const DeleteFailed: string := "Failed to delete asset"

  /** JavaScript truthiness of an optional string: present and not empty. */
  predicate Truthy(s: Option<string>)
  {
    s.Some? && s.value != ""
  }

  /**
    `INITIAL_FORM`: an empty draft in category Other. Its date is the ISO text
    of the day the module was loaded (`today`, a clock reading), and that text
    reads back as the same day.
   */
  function InitialForm(today: Date): (f: Asset)
    requires Formattable(today)
    ensures f.id.None? && f.name == "" && f.serialNo == ""
    ensures f.assignDate.Some? && IsoShaped(f.assignDate.value)
    ensures ParseIsoDate(f.assignDate.value) == Some(today)
    ensures f.category == Some(Other.Value())
  {
    ParseFormatRoundTrip(today);
    Asset(None, "", "", Some(FormatIsoDate(today)), Some(Other.Value()))
  }

  /** The state on mount, before the first fetch: the draft is the initial form of the load day. */
  function Mount(today: Date): (r: ClientState)
    requires Formattable(today)
    ensures r.assets == [] && r.editingId.None? && !r.loading
    ensures r.formData == r.initialForm
    ensures r.initialForm.assignDate.Some? && ParseIsoDate(r.initialForm.assignDate.value) == Some(today)
  {
    ClientState([], InitialForm(today), None, false, InitialForm(today))
  }

  /**
    `error.response?.data?.error || error.response?.data?.message || 'An error occurred'`:
    the first non-empty of the two fields, else the generic text.
   */
  function ErrorMessage(body: ErrorBody): (m: string)
    ensures m != ""
    ensures Truthy(body.error) ==> m == body.error.value
    ensures !Truthy(body.error) && Truthy(body.message) ==> m == body.message.value
    ensures Some(m) == body.error || Some(m) == body.message || m == GenericError
  {
    if Truthy(body.error) then body.error.value
    else if Truthy(body.message) then body.message.value
    else GenericError
  }

  /**
    `fetchAssets`: one list call. On success the list is replaced by the
    server's; on failure it is kept and an error is reported. Either way
    loading ends false and the draft is untouched.
   */
  function FetchAssets(s: ClientState, listed: Outcome<seq<Asset>>): (r: Step)
    ensures r.calls == [ListAll]
    ensures !r.state.loading
    ensures listed.Ok? ==> r.state.assets == listed.value && r.failure.None?
    ensures listed.Err? ==> r.state.assets == s.assets && r.failure == Some(FetchFailed)
    ensures r.state.formData == s.formData && r.state.editingId == s.editingId
  {
    var loading := s.(loading := true);
    match listed
    case Ok(data) => Step(loading.(assets := data, loading := false), [ListAll], None)
    case Err(_) => Step(loading.(loading := false), [ListAll], Some(FetchFailed))
  }

  /** The save call `handleSubmit` makes: update while editing, create otherwise. */
  function SubmitCall(s: ClientState): (c: Call)
    ensures c.Update? <==> Truthy(s.editingId)
    ensures c.Update? ==> c == Update(s.editingId.value, s.formData)
    ensures c.Create? ==> c == Create(s.formData)
  {
    if Truthy(s.editingId) then Update(s.editingId.value, s.formData) else Create(s.formData)
  }

  /**
    `handleSubmit`: exactly one save call. On success the draft is reset,
    editing ends and a fetch follows; on failure the state is left as it was
    so the user can retry, and the server's message is reported.
   */
  function Submit(s: ClientState, saved: Outcome<Asset>, listed: Outcome<seq<Asset>>): (r: Step)
    ensures |r.calls| >= 1 && r.calls[0] == SubmitCall(s)
    ensures forall i :: 1 <= i < |r.calls| ==> r.calls[i] == ListAll
    ensures saved.Ok? ==> r.calls == [SubmitCall(s), ListAll]
    ensures saved.Ok? ==> r.state.formData == s.initialForm && r.state.editingId.None? && !r.state.loading
    ensures saved.Ok? && listed.Ok? ==> r.state.assets == listed.value && r.failure.None?
    ensures saved.Ok? && listed.Err? ==> r.state.assets == s.assets && r.failure == Some(FetchFailed)
    ensures saved.Err? ==> r.state == s && r.calls == [SubmitCall(s)]
    ensures saved.Err? ==> r.failure == Some(ErrorMessage(saved.error))
  {
    var call := SubmitCall(s);
    match saved
    case Ok(_) =>
      var fetched := FetchAssets(s.(formData := s.initialForm, editingId := None), listed);
      Step(fetched.state, [call] + fetched.calls, fetched.failure)
    case Err(body) =>
      Step(s, [call], Some(ErrorMessage(body)))
  }

  /**
    `handleEdit(a)`: the draft takes `a`'s fields without its id, and `a`'s id
    (when it has a non-empty one) becomes the one being edited. No call is made.
   */
  function HandleEdit(s: ClientState, a: Asset): (r: ClientState)
    ensures r.formData.id.None?
    ensures r.formData.name == a.name && r.formData.serialNo == a.serialNo
    ensures r.formData.assignDate == a.assignDate && r.formData.category == a.category
    ensures r.editingId.Some? <==> Truthy(a.id)
    ensures r.editingId.Some? ==> r.editingId == a.id
    ensures r.assets == s.assets && r.loading == s.loading
  {
    s.(formData := Asset(None, a.name, a.serialNo, a.assignDate, a.category),
       editingId := if Truthy(a.id) then a.id else None)
  }

  /** `handleCancelEdit`: back to an empty draft in create mode. No call is made. */
  function HandleCancelEdit(s: ClientState): (r: ClientState)
    ensures r.formData == s.initialForm && r.editingId.None?
    ensures r.assets == s.assets && r.loading == s.loading
  {
    s.(formData := s.initialForm, editingId := None)
  }

  /** `setFormData(f)`, the form's own setter. */
  function SetFormData(s: ClientState, f: Asset): (r: ClientState)
    ensures r.formData == f
    ensures r.assets == s.assets && r.editingId == s.editingId && r.loading == s.loading
  {
    s.(formData := f)
  }

  /**
    `handleDelete(id)`: nothing at all unless the user confirmed. A confirmed
    delete makes one delete call and, when it succeeds, a fetch. The draft and
    the id being edited are never touched, even when it is that asset.
   */
  function HandleDelete(s: ClientState, id: string, confirmed: bool, removed: Outcome<()>, listed: Outcome<seq<Asset>>): (r: Step)
    ensures !confirmed ==> r == Step(s, [], None)
    ensures confirmed ==> |r.calls| >= 1 && r.calls[0] == Remove(id)
    ensures confirmed && removed.Ok? ==> r.calls == [Remove(id), ListAll] && !r.state.loading
    ensures confirmed && removed.Ok? && listed.Ok? ==> r.state.assets == listed.value && r.failure.None?
    ensures confirmed && removed.Ok? && listed.Err? ==> r.state.assets == s.assets && r.failure == Some(FetchFailed)
    ensures confirmed && removed.Err? ==> r.state == s && r.calls == [Remove(id)] && r.failure == Some(DeleteFailed)
    ensures r.state.formData == s.formData && r.state.editingId == s.editingId
  {
    if !confirmed then Step(s, [], None)
    else
      match removed
      case Ok(_) =>
        var fetched := FetchAssets(s, listed);
        Step(fetched.state, [Remove(id)] + fetched.calls, fetched.failure)
      case Err(_) => Step(s, [Remove(id)], Some(DeleteFailed))
  }

  /** Editing an asset and then cancelling leaves the same state as cancelling straight away, with no call made. */
  lemma EditThenCancel(s: ClientState, a: Asset)
    ensures HandleCancelEdit(HandleEdit(s, a)) == HandleCancelEdit(s)
    ensures HandleCancelEdit(HandleEdit(s, a)).editingId.None?
  {
  }

  /** Submitting right after editing a stored asset updates that asset with its own fields. */
  lemma EditThenSubmitUpdates(s: ClientState, a: Asset, saved: Outcome<Asset>, listed: Outcome<seq<Asset>>)
    requires Truthy(a.id)
    ensures Submit(HandleEdit(s, a), saved, listed).calls[0]
         == Update(a.id.value, Asset(None, a.name, a.serialNo, a.assignDate, a.category))
  {
  }

  /** After a successful submit the next submit creates, whatever mode the first one was in. */
  lemma SuccessfulSubmitLeavesEditMode(s: ClientState, saved: Outcome<Asset>, listed: Outcome<seq<Asset>>)
    requires saved.Ok?
    ensures SubmitCall(Submit(s, saved, listed).state) == Create(s.initialForm)
  {
  }

  /** The id being edited is never the empty string: JavaScript's `asset.id || null` turns "" into null. */
  predicate EditingWellFormed(s: ClientState)
  {
    s.editingId != Some("")
  }

  /** Every handler keeps the id being edited well-formed. */
  lemma HandlersKeepEditingWellFormed(s: ClientState, a: Asset, f: Asset, today: Date, id: string, confirmed: bool,
                                      saved: Outcome<Asset>, removed: Outcome<()>, listed: Outcome<seq<Asset>>)
    requires Formattable(today) && EditingWellFormed(s)
    ensures EditingWellFormed(Mount(today))
    ensures EditingWellFormed(FetchAssets(s, listed).state)
    ensures EditingWellFormed(Submit(s, saved, listed).state)
    ensures EditingWellFormed(HandleEdit(s, a))
    ensures EditingWellFormed(HandleCancelEdit(s))
    ensures EditingWellFormed(SetFormData(s, f))
    ensures EditingWellFormed(HandleDelete(s, id, confirmed, removed, listed).state)
  {
  }

  /**
    No handler changes the initial form, so every reset after mounting goes
    back to the draft of the load day, however many days have passed.
   */
  lemma HandlersKeepInitialForm(s: ClientState, a: Asset, f: Asset, id: string, confirmed: bool,
                                saved: Outcome<Asset>, removed: Outcome<()>, listed: Outcome<seq<Asset>>)
    ensures FetchAssets(s, listed).state.initialForm == s.initialForm
    ensures Submit(s, saved, listed).state.initialForm == s.initialForm
    ensures HandleEdit(s, a).initialForm == s.initialForm
    ensures HandleCancelEdit(s).initialForm == s.initialForm
    ensures SetFormData(s, f).initialForm == s.initialForm
    ensures HandleDelete(s, id, confirmed, removed, listed).state.initialForm == s.initialForm
  {
  }
}

=== FILE: controller.dfy ===
/**
  The REST controller (backend/src/main/java/com/java/assets/controller/AssetController.java):
  how each endpoint turns the service's outcome into an HTTP status and body.
  The controller is wired to the older service class.
 */
module Controller {
  import opened Wrappers
  import opened Entity
  import LegacyService

  const StatusOk: int := 200
  const StatusCreated: int := 201
  const StatusNoContent: int := 204
  const StatusNotFound: int := 404
  const StatusConflict: int := 409
  const StatusServerError: int := 500

  /** The fixed text of a failed create that is not a duplicate. */
  const AddFailedMessage: string := "An error occurred while adding asset"

  /** A response body: one asset, the list, `{"error": …}`, or nothing. */
  datatype Body = AssetBody(asset: Asset) | AssetsBody(assets: set<Asset>) | ErrorJson(error: string) | NoBody

  datatype Response = Response(status: int, body: Body)

  /** A request's response together with the store after it. */
  datatype Exchange = Exchange(store: Store, response: Response)

  /** `POST`: 201 with the saved asset; 409 for a duplicate; 500 with a fixed text for anything else. */
  function PostResponse(r: Result<Asset, Failure>): (resp: Response)
    ensures resp.status == StatusCreated <==> r.Ok?
    ensures r.Ok? ==> resp.body == AssetBody(r.value)
    ensures resp.status == StatusConflict <==> r.Err? && r.error.DuplicateSerialNo?
    ensures resp.status == StatusConflict ==> resp.body == ErrorJson(Message(r.error))
    ensures resp.status == StatusServerError <==> r.Err? && !r.error.DuplicateSerialNo?
    ensures resp.status == StatusServerError ==> resp.body == ErrorJson(AddFailedMessage)
  {
    match r
    case Ok(saved) => Response(StatusCreated, AssetBody(saved))
    case Err(DuplicateSerialNo(sn)) => Response(StatusConflict, ErrorJson(Message(DuplicateSerialNo(sn))))
    case Err(_) => Response(StatusServerError, ErrorJson(AddFailedMessage))
  }

  /** `DELETE`: 204 with no body; every failure is a runtime exception and becomes 404 with its message. */
  function DeleteResponse(r: Result<(), Failure>): (resp: Response)
    ensures resp.status == StatusNoContent <==> r.Ok?
    ensures r.Ok? ==> resp.body == NoBody
    ensures r.Err? ==> resp == Response(StatusNotFound, ErrorJson(Message(r.error)))
  {
    match r
    case Ok(_) => Response(StatusNoContent, NoBody)
    case Err(f) => Response(StatusNotFound, ErrorJson(Message(f)))
  }

  /** `PUT`: 200 with the saved asset; a duplicate is caught first (409); any other runtime exception is 404. */
  function PutResponse(r: Result<Asset, Failure>): (resp: Response)
    ensures resp.status == StatusOk <==> r.Ok?
    ensures r.Ok? ==> resp.body == AssetBody(r.value)
    ensures resp.status == StatusConflict <==> r.Err? && r.error.DuplicateSerialNo?
    ensures resp.status == StatusNotFound <==> r.Err? && !r.error.DuplicateSerialNo?
    ensures r.Err? ==> resp.body == ErrorJson(Message(r.error))
  {
    match r
    case Ok(saved) => Response(StatusOk, AssetBody(saved))
    case Err(DuplicateSerialNo(sn)) => Response(StatusConflict, ErrorJson(Message(DuplicateSerialNo(sn))))
    case Err(f) => Response(StatusNotFound, ErrorJson(Message(f)))
  }

  /** `GET /{id}`: 200 with the asset, or a bodiless 404. */
  function GetByIdResponse(r: Option<Asset>): (resp: Response)
    ensures r.Some? <==> resp.status == StatusOk
    ensures r.Some? ==> resp.body == AssetBody(r.value)
    ensures r.None? ==> resp == Response(StatusNotFound, NoBody)
  {
    match r
    case Some(a) => Response(StatusOk, AssetBody(a))
    case None => Response(StatusNotFound, NoBody)
  }

  /** `GET /`: always 200 with every stored asset; the store is unchanged. */
  function GetAll(store: Store): (e: Exchange)
    ensures e.store == store && e.response.status == StatusOk
    ensures e.response.body.AssetsBody? && e.response.body.assets == store.Values
  {
    Exchange(store, Response(StatusOk, AssetsBody(LegacyService.GetAllAssets(store))))
  }

  function GetById(store: Store, id: string): (e: Exchange)
    ensures e.store == store
    ensures e.response.status == StatusOk <==> id in store
    ensures id in store ==> e.response.body == AssetBody(store[id])
  {
    Exchange(store, GetByIdResponse(LegacyService.GetAssetById(store, id)))
  }

  function Post(store: Store, asset: Asset, freshId: string): (e: Exchange)
    requires StoreInvariant(store) && freshId !in store
    ensures e.response.status == StatusCreated <==> !SerialTaken(store, asset.serialNo)
    ensures e.response.status == StatusConflict <==> SerialTaken(store, asset.serialNo)
    ensures e.response.status == StatusConflict ==> e.store == store
    ensures StoreInvariant(e.store)
  {
    var reply := LegacyService.AddAsset(store, asset, freshId);
    LegacyService.AddPreservesInvariant(store, asset, freshId);
    Exchange(reply.store, PostResponse(reply.result))
  }

  function Put(store: Store, id: string, asset: Asset): (e: Exchange)
    requires StoreInvariant(store)
    ensures e.response.status == StatusNotFound <==> id !in store
    ensures e.response.status == StatusConflict <==>
              id in store && store[id].serialNo != asset.serialNo && SerialTaken(store, asset.serialNo)
    ensures e.response.status != StatusOk ==> e.store == store
    ensures StoreInvariant(e.store)
  {
    var reply := LegacyService.UpdateAsset(store, id, asset);
    LegacyService.UpdateRefusalIff(store, id, asset);
    LegacyService.UpdatePreservesInvariant(store, id, asset);
    Exchange(reply.store, PutResponse(reply.result))
  }

  function Delete(store: Store, id: string): (e: Exchange)
    ensures e.response.status == StatusNoContent <==> id in store
    ensures e.response.status == StatusNotFound <==> id !in store
    ensures e.store.Keys == store.Keys - {id}
    ensures forall k :: k in e.store ==> e.store[k] == store[k]
  {
    var reply := LegacyService.DeleteAsset(store, id);
    Exchange(reply.store, DeleteResponse(reply.result))
  }

  /** A request to one of the endpoints modelled here. */
  datatype Request =
    | GetAllRequest
    | GetByIdRequest(id: string)
    | PostRequest(asset: Asset)
    | PutRequest(id: string, asset: Asset)
    | DeleteRequest(id: string)

  /** Requests that only read. */
  predicate ReadOnly(req: Request)
  {
    req.GetAllRequest? || req.GetByIdRequest?
  }

  /**
    One request against the store. `newId` is the database's id generator:
    it never yields an id already in use.
   */
  function Handle(store: Store, req: Request, newId: Store -> string): (e: Exchange)
    requires StoreInvariant(store)
    requires forall s: Store :: newId(s) !in s
    ensures StoreInvariant(e.store)
    ensures ReadOnly(req) ==> e.store == store
  {
    match req
    case GetAllRequest => GetAll(store)
    case GetByIdRequest(id) => GetById(store, id)
    case PostRequest(asset) => Post(store, asset, newId(store))
    case PutRequest(id, asset) => Put(store, id, asset)
    case DeleteRequest(id) =>
      LegacyService.DeletePreservesInvariant(store, id);
      Delete(store, id)
  }

  /**
    Requests served one after another. Whatever they are, the store keeps
    ids equal to keys and serial numbers unique, and read-only requests leave
    it as it was.
   */
  function Serve(store: Store, reqs: seq<Request>, newId: Store -> string): (r: Store)
    requires StoreInvariant(store)
    requires forall s: Store :: newId(s) !in s
    ensures StoreInvariant(r)
    ensures (forall i | 0 <= i < |reqs| :: ReadOnly(reqs[i])) ==> r == store
    decreases |reqs|
  {
    if reqs == [] then store
    else Serve(Handle(store, reqs[0], newId).store, reqs[1..], newId)
  }

  /** The empty collection meets the invariant, so every history served from it does too. */
  lemma ServedFromEmpty(reqs: seq<Request>, newId: Store -> string)
    requires forall s: Store :: newId(s) !in s
    ensures StoreInvariant(map[])
    ensures StoreInvariant(Serve(map[], reqs, newId))
  {
  }

  /** Through the older service a create never fails except as a duplicate, so `POST` never answers 500. */
  lemma PostNeverServerError(store: Store, asset: Asset, freshId: string)
    requires StoreInvariant(store) && freshId !in store
    ensures Post(store, asset, freshId).response.status in {StatusCreated, StatusConflict}
  {
  }

  /** No request body is validated: a create with a blank name, blank serial number and no date is stored. */
  lemma ConstraintsNotEnforced(freshId: string)
    ensures !ValidAsset(Asset(None, "", "", None, None))
    ensures Post(map[], Asset(None, "", "", None, None), freshId).response.status == StatusCreated
  {
  }
}

=== FILE: dashboard.dfy ===
/**
  The dashboard's statistics (frontend/src/components/Dashboard.tsx): the
  total, the assets dated this month and in the last week, and the latest
  asset. `now` is the caller's clock reading, as a date.
 */
module Dashboard {
  import opened Wrappers
  import opened AssetTypes
  import opened Calendar

  /** The day of time value 0, which is what `new Date(null)` stands for (in UTC). */
  const Epoch: Date := Date(1970, 1, 1)

  /**
    `new Date(asset.assignDate)` at day granularity; `None` is an invalid
    date. A `null` date is not invalid: it is the epoch.
   */
  function DateOf(a: Asset): (r: Option<Date>)
    ensures r.Some? ==> Formattable(r.value)
    ensures a.assignDate.None? ==> r.Some?
  {
    match a.assignDate
    case None => Some(Epoch)
    case Some(text) => ParseIsoDate(text)
  }

  /** A date text that the dashboard can read is exactly the ISO text of the date it reads. */
  lemma DateOfReadsIsoText(a: Asset)
    requires a.assignDate.Some? && DateOf(a).Some?
    ensures FormatIsoDate(DateOf(a).value) == a.assignDate.value
  {
    FormatParseRoundTrip(a.assignDate.value);
  }

  /** Same month and year as `now`; an invalid date never is (its `getMonth()` is NaN). */
  predicate InMonthOf(a: Asset, now: Date)
  {
    DateOf(a).Some? && DateOf(a).value.month == now.month && DateOf(a).value.year == now.year
  }

  /** The start of the week window: seven days before `now`. */
  function WeekStart(now: Date): (r: Date)
    requires Valid(now)
    ensures Valid(r) && Before(r, now)
  {
    DaysBefore(now, 7)
  }

  /**
    `new Date(asset.assignDate) >= oneWeekAgo`, with no upper bound. A date
    text is midnight UTC, while `oneWeekAgo` keeps the current time of day,
    so the day seven days back is in the window only at exactly midnight:
    the model leaves it out. An invalid date is never in the window.
   */
  predicate InWeekOf(a: Asset, now: Date)
    requires Valid(now)
  {
    DateOf(a).Some? && Before(WeekStart(now), DateOf(a).value)
  }

  /** The window starts the day after `WeekStart(now)`: that day is out, the next one is in. */
  lemma WeekBoundary(a: Asset, now: Date)
    requires Valid(now) && DateOf(a).Some?
    ensures DateOf(a).value == WeekStart(now) ==> !InWeekOf(a, now)
    ensures DateOf(a).value == NextDay(WeekStart(now)) ==> InWeekOf(a, now)
  {
  }

  /** `assets.filter(f).length`. */
  function CountWhere(assets: seq<Asset>, f: Asset -> bool): (r: nat)
    ensures r <= |assets|
    ensures r == |assets| <==> forall i :: 0 <= i < |assets| ==> f(assets[i])
    ensures r == 0 <==> forall i :: 0 <= i < |assets| ==> !f(assets[i])
  {
    if assets == [] then 0
    else
      var rest := CountWhere(assets[1..], f);
      assert forall i :: 1 <= i < |assets| ==> assets[i] == assets[1..][i - 1];
      (if f(assets[0]) then 1 else 0) + rest
  }

  /** Counting over a concatenation adds the counts. */
  lemma {:induction false} CountAppend(xs: seq<Asset>, ys: seq<Asset>, f: Asset -> bool)
    ensures CountWhere(xs + ys, f) == CountWhere(xs, f) + CountWhere(ys, f)
  {
    if xs == [] {
      assert xs + ys == ys;
    } else {
      assert (xs + ys)[0] == xs[0];
      assert (xs + ys)[1..] == xs[1..] + ys;
      CountAppend(xs[1..], ys, f);
    }
  }

  /** Every asset is counted either by `f` or by its negation `g`. */
  lemma {:induction false} CountComplement(assets: seq<Asset>, f: Asset -> bool, g: Asset -> bool)
    requires forall i :: 0 <= i < |assets| ==> g(assets[i]) == !f(assets[i])
    ensures CountWhere(assets, f) + CountWhere(assets, g) == |assets|
  {
    if assets != [] {
      assert forall i :: 1 <= i < |assets| ==> assets[i] == assets[1..][i - 1];
      CountComplement(assets[1..], f, g);
    }
  }

  /** An asset whose date is newer than another's; false if either date is invalid. */
  predicate Newer(a: Asset, b: Asset)
  {
    DateOf(a).Some? && DateOf(b).Some? && Before(DateOf(b).value, DateOf(a).value)
  }

  /**
    `reduce((latest, asset) => newer(asset, latest) ? asset : latest)` over
    `assets[k..]`, carried as the index `best` of the current winner.
   */
  function ReduceLatest(assets: seq<Asset>, best: nat, k: nat): (r: nat)
    requires best < k <= |assets|
    ensures best <= r < |assets|
    decreases |assets| - k
  {
    if k == |assets| then best
    else ReduceLatest(assets, if Newer(assets[k], assets[best]) then k else best, k + 1)
  }

  /** The latest asset, `null` (`None`) for an empty list. */
  function Latest(assets: seq<Asset>): (r: Option<Asset>)
    ensures r.None? <==> |assets| == 0
    ensures r.Some? ==> r.value in assets
  {
    if |assets| == 0 then None else Some(assets[ReduceLatest(assets, 0, 1)])
  }

  predicate AllDated(assets: seq<Asset>)
  {
    forall i :: 0 <= i < |assets| ==> DateOf(assets[i]).Some?
  }

  /**
    Among `assets[..k]`, position `i` has a date no other reaches, and every
    earlier position has a strictly earlier date: it is the first latest one.
   */
  predicate FirstLatestAmong(assets: seq<Asset>, i: nat, k: nat)
    requires AllDated(assets) && i < k <= |assets|
  {
    && (forall j :: 0 <= j < k ==> !Before(DateOf(assets[i]).value, DateOf(assets[j]).value))
    && (forall j :: 0 <= j < i ==> Before(DateOf(assets[j]).value, DateOf(assets[i]).value))
  }

  /** The reduce keeps the first latest asset of the prefix it has seen. */
  lemma {:induction false} ReduceKeepsFirstLatest(assets: seq<Asset>, best: nat, k: nat)
    requires AllDated(assets) && best < k <= |assets|
    requires FirstLatestAmong(assets, best, k)
    ensures FirstLatestAmong(assets, ReduceLatest(assets, best, k), |assets|)
    decreases |assets| - k
  {
    if k < |assets| {
      var next := if Newer(assets[k], assets[best]) then k else best;
      ReduceStep(assets, best, k);
      ReduceKeepsFirstLatest(assets, next, k + 1);
    }
  }

  /** One step of the reduce keeps the first latest asset of the longer prefix. */
  lemma ReduceStep(assets: seq<Asset>, best: nat, k: nat)
    requires AllDated(assets) && best < k < |assets|
    requires FirstLatestAmong(assets, best, k)
    ensures FirstLatestAmong(assets, if Newer(assets[k], assets[best]) then k else best, k + 1)
  {
    var db := DateOf(assets[best]).value;
    var dk := DateOf(assets[k]).value;
    if Before(db, dk) {
      forall j | 0 <= j < k
        ensures Before(DateOf(assets[j]).value, dk)
      {
        var dj := DateOf(assets[j]).value;
        assert !Before(db, dj);
      }
    }
  }

  /**
    When every date is valid, the latest asset has a date no asset exceeds,
    and on ties it is the first such asset in list order.
   */
  lemma LatestIsFirstMaximal(assets: seq<Asset>)
    requires AllDated(assets) && |assets| > 0
    ensures FirstLatestAmong(assets, ReduceLatest(assets, 0, 1), |assets|)
    ensures Latest(assets) == Some(assets[ReduceLatest(assets, 0, 1)])
  {
    ReduceKeepsFirstLatest(assets, 0, 1);
  }

  /**
    A `null` date is the epoch, so any asset with a later valid date beats
    an earlier asset without a date, whatever their order.
   */
  lemma NullDateLosesToLaterDate(undated: Asset, dated: Asset, d: Date)
    requires undated.assignDate.None? && DateOf(dated) == Some(d) && Before(Epoch, d)
    ensures Latest([undated, dated]) == Some(dated)
    ensures Latest([dated, undated]) == Some(dated)
  {
    assert !Newer(undated, dated);
    assert ReduceLatest([dated, undated], 0, 1) == ReduceLatest([dated, undated], 0, 2);
  }

  /** If the first asset's date text does not parse, nothing is ever newer than it, so it stays the latest. */
  lemma {:induction false} InvalidFirstDateWins(assets: seq<Asset>, k: nat)
    requires 0 < k <= |assets| && DateOf(assets[0]).None?
    ensures ReduceLatest(assets, 0, k) == 0
    decreases |assets| - k
  {
    if k < |assets| {
      InvalidFirstDateWins(assets, k + 1);
    }
  }

  /** The four figures the dashboard shows. */
  datatype Stats = Stats(total: nat, thisMonth: nat, thisWeek: nat, latest: Option<Asset>)

  function Summarize(assets: seq<Asset>, now: Date): (s: Stats)
    requires Valid(now)
    ensures s.total == |assets|
    ensures s.thisMonth <= s.total && s.thisWeek <= s.total
    ensures s.latest.None? <==> s.total == 0
  {
    Stats(|assets|,
          CountWhere(assets, a => InMonthOf(a, now)),
          CountWhere(assets, a => InWeekOf(a, now)),
          Latest(assets))
  }

  /** The "Latest Asset" card: the latest asset's name, or "N/A" for an empty list. */
  function LatestLabel(s: Stats): (r: string)
    ensures s.latest.None? ==> r == "N/A"
    ensures s.latest.Some? ==> r == s.latest.value.name
  {
    match s.latest
    case None => "N/A"
    case Some(a) => a.name
  }

  /** The assets of this month and the assets outside it add up to the total. */
  lemma MonthPartition(assets: seq<Asset>, now: Date)
    requires Valid(now)
    ensures Summarize(assets, now).thisMonth + CountWhere(assets, a => !InMonthOf(a, now)) == |assets|
  {
    CountComplement(assets, a => InMonthOf(a, now), a => !InMonthOf(a, now));
  }

  /** An asset dated `now` (or later) counts in the week; dated `now`, also in the month. */
  lemma TodayCountsTwice(a: Asset, now: Date)
    requires Valid(now) && DateOf(a).Some? && !Before(DateOf(a).value, now)
    ensures InWeekOf(a, now)
    ensures DateOf(a) == Some(now) ==> InMonthOf(a, now)
  {
  }

  /** More than seven days into the month, an asset dated before the month began counts in neither window. */
  lemma OldAssetCountsNowhere(a: Asset, now: Date)
    requires Valid(now) && DateOf(a).Some? && Before(DateOf(a).value, Date(now.year, now.month, 1))
    requires now.day > 7
    ensures !InMonthOf(a, now) && !InWeekOf(a, now)
  {
    DaysBeforeWithinMonth(now, 7);
  }

  /** Going back fewer days than the day of the month stays in the month. */
  lemma {:induction false} DaysBeforeWithinMonth(d: Date, n: nat)
    requires Valid(d) && n < d.day
    ensures DaysBefore(d, n) == d.(day := d.day - n)
  {
    if n > 0 {
      DaysBeforeWithinMonth(d, n - 1);
    }
  }
}

=== FILE: end_to_end.dfy ===
/**
  The client and the server together: what the user is told when the server
  refuses a submit (frontend/src/hooks/useAssets.ts reading the body that
  backend/src/main/java/com/java/assets/controller/AssetController.java writes).
 */
module EndToEnd {
  import opened Wrappers
  import Entity
  import Controller
  import Collection

  /**
    The fields the client reads from a body the controller writes itself: only
    `{"error": …}` has one. Bodies written by the framework's exception handler
    (with a `message` field) are not among these.
   */
  function ClientView(b: Controller.Body): (r: Collection.ErrorBody)
    ensures r.message.None?
    ensures r.error.Some? <==> b.ErrorJson?
  {
    match b
    case ErrorJson(e) => Collection.ErrorBody(Some(e), None)
    case _ => Collection.ErrorBody(None, None)
  }

  /** Every failure message is non-empty, so the client never falls back past it. */
  lemma MessageNonEmpty(f: Entity.Failure)
    ensures Entity.Message(f) != ""
  {
  }

  /**
    A refused update reaches the user as the server's own message: the
    duplicate text for a taken serial number, the not-found text otherwise.
   */
  lemma RefusedUpdateMessage(store: Entity.Store, id: string, asset: Entity.Asset)
    requires Entity.StoreInvariant(store)
    requires Controller.Put(store, id, asset).response.status != Controller.StatusOk
    ensures Collection.ErrorMessage(ClientView(Controller.Put(store, id, asset).response.body))
         == (if id in store then Entity.Message(Entity.DuplicateSerialNo(asset.serialNo))
             else Entity.Message(Entity.NotFoundRuntime(id)))
  {
  }

  /** A create refused for a taken serial number tells the user which serial number it was. */
  lemma RefusedCreateMessage(store: Entity.Store, asset: Entity.Asset, freshId: string)
    requires Entity.StoreInvariant(store) && freshId !in store
    requires Entity.SerialTaken(store, asset.serialNo)
    ensures Collection.ErrorMessage(ClientView(Controller.Post(store, asset, freshId).response.body))
         == Entity.Message(Entity.DuplicateSerialNo(asset.serialNo))
  {
  }
}

=== FILE: entity.dfy ===
/**
  The server's asset document (backend/src/main/java/com/java/assets/model/Asset.java),
  its declared constraints, the repository as a map from id to document, and
  the failures the services raise.
 */
module Entity {
  import opened Wrappers
  import opened Calendar
  import opened Text

  /** A stored or submitted asset. `id` is absent on a create request; `category` is free text or null. */
  datatype Asset = Asset(id: Option<string>, name: string, serialNo: string, assignDate: Option<Date>, category: Option<string>)

  /** The repository: documents by id. */
  type Store = map<string, Asset>

  /** `@NotBlank`: after trimming characters up to U+0020, something is left. */
  predicate NotBlank(s: string)
  {
    exists i | 0 <= i < |s| :: s[i] > ' '
  }

  /** Every character of `s` outside `s[b..e]` is at most U+0020. */
  predicate BlankOutside(s: string, b: nat, e: nat)
    requires b <= e <= |s|
  {
    (forall j :: 0 <= j < b ==> s[j] <= ' ') && (forall j :: e <= j < |s| ==> s[j] <= ' ')
  }

  /**
    `String.trim()`: skips characters up to U+0020 from the front, then from
    the back. The result is the one slice of `s` with only such characters
    outside it and none at its own ends.
   */
  function Trim(s: string): (r: string)
    ensures |r| <= |s|
    ensures r == [] || (r[0] > ' ' && r[|r| - 1] > ' ')
    ensures exists b: nat, e: nat | b <= e <= |s| :: BlankOutside(s, b, e) && r == s[b..e]
  {
    var b := SkipFront(s, 0);
    var e := SkipBack(s, b, |s|);
    assert BlankOutside(s, b, e);
    s[b..e]
  }

  /** The first index from `i` on whose character is above U+0020, or `|s|`. */
  function SkipFront(s: string, i: nat): (r: nat)
    requires i <= |s|
    ensures i <= r <= |s|
    ensures forall j :: i <= j < r ==> s[j] <= ' '
    ensures r < |s| ==> s[r] > ' '
    decreases |s| - i
  {
    if i < |s| && s[i] <= ' ' then SkipFront(s, i + 1) else i
  }

  /** Moves `e` back over characters up to U+0020, but not below `b`. */
  function SkipBack(s: string, b: nat, e: nat): (r: nat)
    requires b <= e <= |s|
    ensures b <= r <= e
    ensures forall j :: r <= j < e ==> s[j] <= ' '
    ensures r > b ==> s[r - 1] > ' '
  {
    if e > b && s[e - 1] <= ' ' then SkipBack(s, b, e - 1) else e
  }

  /** Hibernate's `@NotBlank` is `trim().length() > 0`: the two definitions agree. */
  lemma NotBlankIffTrimNonEmpty(s: string)
    ensures NotBlank(s) <==> Trim(s) != ""
  {
    var b := SkipFront(s, 0);
    var e := SkipBack(s, b, |s|);
    if NotBlank(s) {
      var i :| 0 <= i < |s| && s[i] > ' ';
      assert b <= i < e;
    }
  }

  /**
    Java's `String.length()`: the number of UTF-16 code units, two for each
    character above U+FFFF. (Both halves of such a pair lie above U+0020, so
    trimming per character and per code unit agree.)
   */
  function Utf16Length(s: string): (n: nat)
    ensures |s| <= n <= 2 * |s|
    ensures (forall i | 0 <= i < |s| :: s[i] <= '\U{FFFF}') ==> n == |s|
    ensures |s| == 1 ==> n == (if s[0] > '\U{FFFF}' then 2 else 1)
  {
    if s == [] then 0
    else Utf16Length(s[..|s| - 1]) + (if s[|s| - 1] > '\U{FFFF}' then 2 else 1)
  }

  /** Code units add up over concatenation. */
  lemma {:induction false} Utf16LengthAppend(a: string, b: string)
    ensures Utf16Length(a + b) == Utf16Length(a) + Utf16Length(b)
    decreases |b|
  {
    if b == [] {
      assert a + b == a;
    } else {
      var init := b[..|b| - 1];
      Utf16LengthAppend(a, init);
      assert (a + b)[..|a + b| - 1] == a + init;
      assert (a + b)[|a + b| - 1] == b[|b| - 1];
    }
  }

  /** `@Size(min = 2, max = 100)`: the untrimmed length, in UTF-16 code units. */
  predicate NameSized(s: string)
  {
    2 <= Utf16Length(s) <= 100
  }

  /**
    The bean-validation constraints declared on the document. They are
    declarative only: no request body is validated, so the services accept
    assets that break them.
   */
  predicate ValidAsset(a: Asset)
    ensures ValidAsset(a) <==>
              Trim(a.name) != "" && NameSized(a.name) && Trim(a.serialNo) != "" && a.assignDate.Some?
    ensures ValidAsset(a) ==> 1 <= |a.name| <= 100
  {
    NotBlankIffTrimNonEmpty(a.name);
    NotBlankIffTrimNonEmpty(a.serialNo);
    NotBlank(a.name) && NameSized(a.name) && NotBlank(a.serialNo) && a.assignDate.Some?
  }

  /**
    The size bound counts surrounding blanks: " a" has the right size but
    only one character once trimmed, and "  " has the right size but is blank.
   */
  lemma SizeCountsBlanks()
    ensures NameSized(" a") && |Trim(" a")| == 1 && NotBlank(" a")
    ensures NameSized("  ") && !NotBlank("  ")
  {
    assert " a"[1] > ' ';
    assert SkipFront(" a", 0) == 1;
  }

  /**
    The size bound counts code units, not characters: a name that is one
    emoji above U+FFFF is one character but two units, so it has the right size.
   */
  lemma SizeCountsCodeUnits()
    ensures |"\U{1F4BB}"| == 1 && NameSized("\U{1F4BB}")
    ensures |"a\U{1F4BB}"| == 2 && Utf16Length("a\U{1F4BB}") == 3
  {
  }

  /** Every document is stored under its own id. */
  predicate WellKeyed(store: Store)
  {
    forall k :: k in store ==> store[k].id == Some(k)
  }

  /**
    No two documents share a serial number. The services check this before
    every save; `@Indexed(unique = true)` would also enforce it in the
    database, but only where automatic index creation is switched on.
   */
  predicate UniqueSerials(store: Store)
  {
    forall k1, k2 :: k1 in store && k2 in store && store[k1].serialNo == store[k2].serialNo ==> k1 == k2
  }

  /**
    What the services assume of the store. Every service call keeps it, so
    requests served one after another from an empty collection never break it.
   */
  predicate StoreInvariant(store: Store)
  {
    WellKeyed(store) && UniqueSerials(store)
  }

  /** Some stored document has serial number `sn`. */
  predicate SerialTaken(store: Store, sn: string)
  {
    exists k :: k in store && store[k].serialNo == sn
  }

  /** `findBySerialNo`: the id of the one document holding `sn`, if any. */
  function FindBySerialNo(store: Store, sn: string): (r: Option<string>)
    requires UniqueSerials(store)
    ensures r.Some? <==> SerialTaken(store, sn)
    ensures r.Some? ==> r.value in store && store[r.value].serialNo == sn
  {
    if SerialTaken(store, sn) then
      var k :| k in store && store[k].serialNo == sn;
      Some(k)
    else None
  }

  /** The exceptions the services throw. */
  datatype Failure =
    | AssetNotFound(id: string)        // AssetNotFoundException
    | DuplicateSerialNo(serialNo: string)   // DuplicateSerialNoException
    | NotFoundRuntime(id: string)      // a bare RuntimeException for a missing id

  /** `getMessage()` of each failure. */
  function Message(f: Failure): string
  {
    match f
    case AssetNotFound(id) => "Asset not found with id: " + id
    case DuplicateSerialNo(sn) => "Asset with serialNo '" + sn + "' already exists!"
    case NotFoundRuntime(id) => "Asset not found with id: " + id
  }

  /** A not-found message names the id, and a duplicate message names the serial number. */
  lemma MessageNamesSubject(f: Failure)
    ensures f.AssetNotFound? || f.NotFoundRuntime? ==> Contains(Message(f), f.id)
    ensures f.DuplicateSerialNo? ==> Contains(Message(f), f.serialNo)
  {
    match f
    case AssetNotFound(id) => ContainsConcat("Asset not found with id: ", id);
    case NotFoundRuntime(id) => ContainsConcat("Asset not found with id: ", id);
    case DuplicateSerialNo(sn) =>
      var prefix := "Asset with serialNo '";
      var m := prefix + sn + "' already exists!";
      assert m[|prefix|..|prefix| + |sn|] == sn;
      assert OccursAt(m, sn, |prefix|);
  }

  /** `findAll()`: every stored document. */
  function FindAll(store: Store): (r: set<Asset>)
    ensures forall k :: k in store ==> store[k] in r
    ensures forall a :: a in r ==> exists k :: k in store && store[k] == a
  {
    store.Values
  }

  /** A service call's result together with the store after it. */
  datatype Reply<T> = Reply(store: Store, result: Result<T, Failure>)
}

=== FILE: filter.dfy ===
/**
  The search / category / page pipeline of the asset list
  (frontend/src/hooks/useFilter.ts): a pure derivation from the asset list and
  a small filter state, plus the state's transitions.
 */
module Filter {
  import opened Wrappers
  import opened Text
  import opened AssetTypes

  /** `ITEMS_PER_PAGE`. */
  const PageSize: nat := 6

  function Min(a: int, b: int): int { if a <= b then a else b }

  function Max(a: int, b: int): int { if a >= b then a else b }

  // ---------------------------------------------------------------------------
  // Matching
  // ---------------------------------------------------------------------------

  /**
    `!selectedCategory`: no selection. The empty string is falsy in
    JavaScript, so a selected "" filters nothing either.
   */
  predicate NoCategory(selected: Option<string>)
  {
    selected.None? || selected.value == ""
  }

  /** The search term, lower-cased, occurs in the lower-cased name or serial number. */
  predicate MatchesSearch(a: Asset, term: string)
  {
    Contains(Lower(a.name), Lower(term)) || Contains(Lower(a.serialNo), Lower(term))
  }

  /**
    No category is selected, or the asset's category is exactly the selected
    one. An asset whose category is `null` never equals a selected string.
   */
  predicate MatchesCategory(a: Asset, selected: Option<string>)
  {
    NoCategory(selected) || a.category == selected
  }

  predicate Matches(a: Asset, term: string, selected: Option<string>)
  {
    MatchesSearch(a, term) && MatchesCategory(a, selected)
  }

  /** `xs` can be obtained from `ys` by deleting elements, without reordering. */
  predicate IsSubsequence<T(==)>(xs: seq<T>, ys: seq<T>)
    decreases |ys|
  {
    if xs == [] then true
    else if ys == [] then false
    else if xs[0] == ys[0] then IsSubsequence(xs[1..], ys[1..])
    else IsSubsequence(xs, ys[1..])
  }

  /**
    `filteredAssets`: the assets that match both the search term and the
    category selection, in their original order and with their multiplicity.
   */
  function FilterAssets(assets: seq<Asset>, term: string, selected: Option<string>): (r: seq<Asset>)
    ensures forall a :: a in r <==> a in assets && Matches(a, term, selected)
    ensures forall a :: multiset(r)[a] == if Matches(a, term, selected) then multiset(assets)[a] else 0
    ensures IsSubsequence(r, assets)
    decreases |assets|
  {
    if assets == [] then []
    else
      var rest := FilterAssets(assets[1..], term, selected);
      assert assets == [assets[0]] + assets[1..];
      assert multiset(assets) == multiset{assets[0]} + multiset(assets[1..]);
      if Matches(assets[0], term, selected) then
        [assets[0]] + rest
      else
        assert rest != [] ==> rest[0] in rest && rest[0] != assets[0];
        rest
  }

  /** When every asset matches, filtering returns the list unchanged. */
  lemma {:induction false} FilterKeepsAllMatching(assets: seq<Asset>, term: string, selected: Option<string>)
    requires forall a :: a in assets ==> Matches(a, term, selected)
    ensures FilterAssets(assets, term, selected) == assets
    decreases |assets|
  {
    if assets != [] {
      FilterKeepsAllMatching(assets[1..], term, selected);
      assert assets == [assets[0]] + assets[1..];
    }
  }

  /** Lower-casing the search term first changes nothing: the match already ignores its case. */
  lemma {:induction false} SearchIgnoresTermCase(assets: seq<Asset>, term: string, selected: Option<string>)
    ensures FilterAssets(assets, Lower(term), selected) == FilterAssets(assets, term, selected)
    decreases |assets|
  {
    LowerIdempotent(term);
    if assets != [] {
      SearchIgnoresTermCase(assets[1..], term, selected);
    }
  }

  /** An empty search term with no category selected shows every asset. */
  lemma EmptyFilterIsIdentity(assets: seq<Asset>, selected: Option<string>)
    requires NoCategory(selected)
    ensures FilterAssets(assets, "", selected) == assets
  {
    forall a | a in assets ensures Matches(a, "", selected) {
      ContainsEmpty(Lower(a.name));
    }
    FilterKeepsAllMatching(assets, "", selected);
  }

  // ---------------------------------------------------------------------------
  // Paging
  // ---------------------------------------------------------------------------

  /** How `Array.prototype.slice` normalises an index: negative counts from the end; then clamp to `[0, n]`. */
  function Clamp(i: int, n: nat): (r: nat)
    ensures r <= n
  {
    if i < 0 then Max(n + i, 0) else Min(i, n)
  }

  /** `r` is the run of `s` that starts at position `b`. */
  predicate RunAt<T(==)>(r: seq<T>, s: seq<T>, b: nat)
  {
    b + |r| <= |s| && r == s[b..b + |r|]
  }

  /**
    `s.slice(start, end)`: a run of consecutive elements, no longer than
    `end - start` when both indexes count from the same end.
   */
  function Slice<T(==)>(s: seq<T>, start: int, end: int): (r: seq<T>)
    ensures (start < 0 <==> end < 0) ==> |r| <= Max(end - start, 0)
    ensures end == 0 ==> r == []
    ensures exists b: nat :: RunAt(r, s, b)
    ensures RunAt(r, s, Clamp(start, |s|)) && |r| == Max(Clamp(end, |s|) - Clamp(start, |s|), 0)
  {
    var b := Clamp(start, |s|);
    var e := Clamp(end, |s|);
    if b < e then
      assert RunAt(s[b..e], s, b);
      s[b..e]
    else
      assert RunAt([], s, 0);
      []
  }

  /** `paginatedAssets`: `filtered.slice((page - 1) * 6, page * 6)`, a run of at most six consecutive matches. */
  function Page(filtered: seq<Asset>, page: int): (r: seq<Asset>)
    ensures |r| <= PageSize
    ensures exists b: nat :: RunAt(r, filtered, b)
  {
    Slice(filtered, (page - 1) * PageSize, page * PageSize)
  }

  /** `totalPages = Math.ceil(n / 6)`: the least page count whose pages hold `n` items. */
  function TotalPages(n: nat): (r: nat)
    ensures r * PageSize >= n
    ensures r == 0 || (r - 1) * PageSize < n
    ensures r == 0 <==> n == 0
  {
    (n + PageSize - 1) / PageSize
  }

  /** Page `p` (from 1) holds the next six items, or what is left of them. */
  lemma PageContents(filtered: seq<Asset>, p: int)
    requires p >= 1
    ensures |Page(filtered, p)| == Min(PageSize, Max(0, |filtered| - PageSize * (p - 1)))
    ensures forall k :: 0 <= k < |Page(filtered, p)| ==> Page(filtered, p)[k] == filtered[(p - 1) * PageSize + k]
  {
  }

  /** For page numbers from 0 up, a page is non-empty exactly when it is between 1 and `totalPages`. */
  lemma PageNonEmptyIff(filtered: seq<Asset>, p: int)
    requires p >= 0
    ensures |Page(filtered, p)| > 0 <==> 1 <= p <= TotalPages(|filtered|)
  {
    var n := |filtered|;
    var t := TotalPages(n);
    if 1 <= p <= t {
      assert (p - 1) * PageSize <= (t - 1) * PageSize < n;
    } else if p > t {
      assert (p - 1) * PageSize >= t * PageSize >= n;
    }
  }

  /**
    A negative page is not empty in general: `slice` counts negative indexes
    from the end, so page -1 shows the seventh- to twelfth-last items.
   */
  lemma NegativePageCountsFromEnd(filtered: seq<Asset>, p: int)
    requires p < 0 && |filtered| + (p - 1) * PageSize >= 0
    ensures Page(filtered, p) == filtered[|filtered| + (p - 1) * PageSize .. |filtered| + p * PageSize]
    ensures |Page(filtered, p)| == PageSize
  {
  }

  /** On a list of seven to eleven matches, page -1 shows everything but the last six. */
  lemma NegativePageOnShortList(filtered: seq<Asset>)
    requires PageSize < |filtered| < 2 * PageSize
    ensures Page(filtered, -1) == filtered[..|filtered| - PageSize]
  {
  }

  /** Pages 1 to `k` in order. */
  function PagesUpTo(filtered: seq<Asset>, k: nat): seq<Asset>
  {
    if k == 0 then [] else PagesUpTo(filtered, k - 1) + Page(filtered, k)
  }

  /** Pages 1 to `k` together are the first `6k` items. */
  lemma {:induction false} PagesUpToIsPrefix(filtered: seq<Asset>, k: nat)
    ensures PagesUpTo(filtered, k) == filtered[..Min(k * PageSize, |filtered|)]
  {
    if k > 0 {
      PagesUpToIsPrefix(filtered, k - 1);
      var lo := Min((k - 1) * PageSize, |filtered|);
      var hi := Min(k * PageSize, |filtered|);
      assert Page(filtered, k) == filtered[lo..hi];
      assert filtered[..lo] + filtered[lo..hi] == filtered[..hi];
    }
  }

  /** Concatenating pages 1 to `totalPages` in order gives back the filtered list. */
  lemma PagesReassemble(filtered: seq<Asset>)
    ensures PagesUpTo(filtered, TotalPages(|filtered|)) == filtered
  {
    PagesUpToIsPrefix(filtered, TotalPages(|filtered|));
  }

  // ---------------------------------------------------------------------------
  // Filter state and its transitions
  // ---------------------------------------------------------------------------

  /** The hook's own state. */
  datatype FilterState = FilterState(searchTerm: string, selectedCategory: Option<string>, currentPage: int)

  /** The state on mount: no search, no category, page 1. */
  const InitialFilter := FilterState("", None, 1)

  /**
    The page-reset effect: once a render sees a search term or category that
    differs from the previous one, the page goes back to 1; otherwise the
    effect does not run.
   */
  function Settle(before: FilterState, after: FilterState): FilterState
  {
    if after.searchTerm != before.searchTerm || after.selectedCategory != before.selectedCategory
    then after.(currentPage := 1)
    else after
  }

  /** `setSearchTerm(t)` followed by the reset effect. */
  function SetSearchTerm(s: FilterState, t: string): (r: FilterState)
    ensures r.searchTerm == t && r.selectedCategory == s.selectedCategory
    ensures t != s.searchTerm ==> r.currentPage == 1
    ensures t == s.searchTerm ==> r == s
  {
    Settle(s, s.(searchTerm := t))
  }

  /** `handleCategoryToggle`'s update: deselect the selected category, otherwise select it. */
  function Toggled(previous: Option<string>, c: string): Option<string>
  {
    if previous == Some(c) then None else Some(c)
  }

  /** `handleCategoryToggle(c)` followed by the reset effect. A toggle always changes the selection, so the page always resets. */
  function ToggleCategory(s: FilterState, c: string): (r: FilterState)
    ensures s.selectedCategory == Some(c) ==> r.selectedCategory.None?
    ensures s.selectedCategory != Some(c) ==> r.selectedCategory == Some(c)
    ensures r.searchTerm == s.searchTerm
    ensures r.selectedCategory != s.selectedCategory
    ensures r.currentPage == 1
  {
    Settle(s, s.(selectedCategory := Toggled(s.selectedCategory, c)))
  }

  /** `clearFilters()` followed by the reset effect: the page resets only if something was cleared. */
  function ClearFilters(s: FilterState): (r: FilterState)
    ensures r.searchTerm == "" && r.selectedCategory.None?
    ensures s.searchTerm != "" || s.selectedCategory.Some? ==> r.currentPage == 1
    ensures s.searchTerm == "" && s.selectedCategory.None? ==> r == s
  {
    Settle(s, s.(searchTerm := "", selectedCategory := None))
  }

  /** `setCurrentPage(p)`: no effect depends on the page, so nothing else changes. */
  function SetCurrentPage(s: FilterState, p: int): (r: FilterState)
    ensures r.currentPage == p
    ensures r.searchTerm == s.searchTerm && r.selectedCategory == s.selectedCategory
  {
    s.(currentPage := p)
  }

  /**
    Toggling the same category twice restores the previous selection exactly
    when that selection was empty or was that category; from another category
    it ends with nothing selected.
   */
  lemma ToggleTwice(s: FilterState, c: string)
    ensures ToggleCategory(ToggleCategory(s, c), c).selectedCategory == s.selectedCategory
        <==> s.selectedCategory.None? || s.selectedCategory == Some(c)
    ensures ToggleCategory(ToggleCategory(s, c), c).selectedCategory.Some?
        <==> s.selectedCategory == Some(c)
  {
  }

  /** What the hook hands to the list: the filtered list, the current page of it and the page count. */
  datatype View = View(filtered: seq<Asset>, paginated: seq<Asset>, totalPages: nat)

  function ViewOf(assets: seq<Asset>, s: FilterState): (v: View)
    ensures IsSubsequence(v.filtered, assets)
    ensures forall a :: a in v.paginated ==> a in v.filtered
    ensures v.totalPages * PageSize >= |v.filtered|
  {
    var filtered := FilterAssets(assets, s.searchTerm, s.selectedCategory);
    View(filtered, Page(filtered, s.currentPage), TotalPages(|filtered|))
  }

  /** After `clearFilters` the view lists every asset; the asset list itself is not the hook's to change. */
  lemma ClearFiltersShowsAll(assets: seq<Asset>, s: FilterState)
    ensures ViewOf(assets, ClearFilters(s)).filtered == assets
    ensures ViewOf(assets, ClearFilters(s)).totalPages == TotalPages(|assets|)
  {
    EmptyFilterIsIdentity(assets, None);
  }

  /** On mount the list shows the first six assets, unfiltered. */
  lemma MountShowsFirstPage(assets: seq<Asset>)
    ensures ViewOf(assets, InitialFilter).filtered == assets
    ensures ViewOf(assets, InitialFilter).paginated == assets[..Min(PageSize, |assets|)]
  {
    EmptyFilterIsIdentity(assets, None);
  }

  /** After the search term changes, the list shows the first page of the new matches. */
  lemma SearchShowsFirstPage(assets: seq<Asset>, s: FilterState, t: string)
    requires t != s.searchTerm
    ensures ViewOf(assets, SetSearchTerm(s, t)).paginated
         == FilterAssets(assets, t, s.selectedCategory)[..Min(PageSize, |FilterAssets(assets, t, s.selectedCategory)|)]
  {
  }
}

=== FILE: service_impl.dfy ===
/**
  The current service (backend/src/main/java/com/java/assets/service/AssetServiceImpl.java)
  over a map-backed repository. Missing ids raise `AssetNotFound`; a serial
  number held by any stored document raises `DuplicateSerialNo`.
 */
module ServiceImpl {
  import opened Wrappers
  import opened Entity

  /** `getAssetById`: the stored document, or `AssetNotFoundException`. */
  function GetAssetById(store: Store, id: string): (r: Result<Asset, Failure>)
    ensures r.Ok? <==> id in store
    ensures r.Ok? ==> r.value == store[id]
    ensures r.Err? ==> r.error == AssetNotFound(id)
  {
    if id in store then Ok(store[id]) else Err(AssetNotFound(id))
  }

  /**
    `addAsset`: refuses a serial number that is already stored, without saving;
    otherwise saves the asset under the id the database assigns (`freshId`).
   */
  function AddAsset(store: Store, asset: Asset, freshId: string): (r: Reply<Asset>)
    requires StoreInvariant(store) && freshId !in store
    ensures SerialTaken(store, asset.serialNo) ==> r == Reply(store, Err(DuplicateSerialNo(asset.serialNo)))
    ensures !SerialTaken(store, asset.serialNo) ==>
              && r.result == Ok(asset.(id := Some(freshId)))
              && r.store.Keys == store.Keys + {freshId}
              && r.store[freshId] == asset.(id := Some(freshId))
              && forall k :: k in store ==> r.store[k] == store[k]
  {
    if FindBySerialNo(store, asset.serialNo).Some? then
      Reply(store, Err(DuplicateSerialNo(asset.serialNo)))
    else
      var saved := asset.(id := Some(freshId));
      Reply(store[freshId := saved], Ok(saved))
  }

  /** The stored document after a successful update: new name, serial and date; new category only if one was sent. */
  function Merge(existing: Asset, updated: Asset): Asset
  {
    existing.(name := updated.name, serialNo := updated.serialNo, assignDate := updated.assignDate,
              category := if updated.category.Some? then updated.category else existing.category)
  }

  /**
    `updateAsset`: `AssetNotFoundException` for a missing id; a duplicate error
    when the serial number changes to one already stored; otherwise the
    document is overwritten in place and nothing else changes.
   */
  function UpdateAsset(store: Store, id: string, updated: Asset): (r: Reply<Asset>)
    requires StoreInvariant(store)
    ensures id !in store ==> r == Reply(store, Err(AssetNotFound(id)))
    ensures (id in store && store[id].serialNo != updated.serialNo && SerialTaken(store, updated.serialNo))
            ==> r == Reply(store, Err(DuplicateSerialNo(updated.serialNo)))
    ensures r.result.Ok? <==>
              id in store && (store[id].serialNo == updated.serialNo || !SerialTaken(store, updated.serialNo))
    ensures r.result.Ok? ==>
              && r.result.value.id == store[id].id
              && r.result.value.name == updated.name
              && r.result.value.serialNo == updated.serialNo
              && r.result.value.assignDate == updated.assignDate
              && r.result.value.category == (if updated.category.Some? then updated.category else store[id].category)
              && r.store == store[id := r.result.value]
  {
    if id !in store then Reply(store, Err(AssetNotFound(id)))
    else
      var existing := store[id];
      if existing.serialNo != updated.serialNo && FindBySerialNo(store, updated.serialNo).Some? then
        Reply(store, Err(DuplicateSerialNo(updated.serialNo)))
      else
        var saved := Merge(existing, updated);
        Reply(store[id := saved], Ok(saved))
  }

  /** `deleteAsset`: `AssetNotFoundException` with nothing removed, or exactly that id removed. */
  function DeleteAsset(store: Store, id: string): (r: Reply<()>)
    ensures id !in store ==> r == Reply(store, Err(AssetNotFound(id)))
    ensures id in store ==> r.result.Ok? && r.store.Keys == store.Keys - {id}
    ensures forall k :: k in r.store ==> k in store && r.store[k] == store[k]
  {
    if id !in store then Reply(store, Err(AssetNotFound(id))) else Reply(store - {id}, Ok(()))
  }

  /** Adding keeps every document under its own id and every serial number unique. */
  lemma AddPreservesInvariant(store: Store, asset: Asset, freshId: string)
    requires StoreInvariant(store) && freshId !in store
    ensures StoreInvariant(AddAsset(store, asset, freshId).store)
  {
  }

  /** Updating keeps every document under its own id and every serial number unique. */
  lemma UpdatePreservesInvariant(store: Store, id: string, updated: Asset)
    requires StoreInvariant(store)
    ensures StoreInvariant(UpdateAsset(store, id, updated).store)
  {
    var r := UpdateAsset(store, id, updated);
    if r.result.Ok? {
      var s' := r.store;
      forall k1, k2 | k1 in s' && k2 in s' && s'[k1].serialNo == s'[k2].serialNo
        ensures k1 == k2
      {
        if k1 != k2 && (k1 == id || k2 == id) {
          var other := if k1 == id then k2 else k1;
          assert store[other].serialNo == updated.serialNo;
          assert SerialTaken(store, updated.serialNo);
        }
      }
    }
  }

  /** Deleting keeps every document under its own id and every serial number unique. */
  lemma DeletePreservesInvariant(store: Store, id: string)
    requires StoreInvariant(store)
    ensures StoreInvariant(DeleteAsset(store, id).store)
  {
  }

  /** Updating an asset with its own serial number cannot be refused as a duplicate. */
  lemma SameSerialUpdateSucceeds(store: Store, id: string, updated: Asset)
    requires StoreInvariant(store) && id in store && updated.serialNo == store[id].serialNo
    ensures UpdateAsset(store, id, updated).result.Ok?
  {
  }
}

=== FILE: service_legacy.dfy ===
/**
  The older service class (backend/src/main/java/com/java/assets/service/AssetService.java),
  which the controller calls. It differs from the current service: a missing
  id raises a bare runtime exception, lookup by id returns an optional, the
  duplicate check on update ignores a holder with the same id, and update
  never changes the category.
 */
module LegacyService {
  import opened Wrappers
  import opened Entity
  import ServiceImpl

  /** `getAllAssets`: every stored document. */
  function GetAllAssets(store: Store): (r: set<Asset>)
    ensures forall k :: k in store ==> store[k] in r
    ensures forall a :: a in r ==> exists k :: k in store && store[k] == a
  {
    FindAll(store)
  }

  /** `getAssetById`: present or absent, never an exception. */
  function GetAssetById(store: Store, id: string): (r: Option<Asset>)
    ensures r.Some? <==> id in store
    ensures r.Some? ==> r.value == store[id]
  {
    if id in store then Some(store[id]) else None
  }

  /** `addAsset`: a duplicate error, with nothing saved, when the serial number is stored; otherwise saved under `freshId`. */
  function AddAsset(store: Store, asset: Asset, freshId: string): (r: Reply<Asset>)
    requires StoreInvariant(store) && freshId !in store
    ensures SerialTaken(store, asset.serialNo) ==> r == Reply(store, Err(DuplicateSerialNo(asset.serialNo)))
    ensures !SerialTaken(store, asset.serialNo) ==>
              r == Reply(store[freshId := asset.(id := Some(freshId))], Ok(asset.(id := Some(freshId))))
  {
    var existing := FindBySerialNo(store, asset.serialNo);
    if existing.Some? then
      Reply(store, Err(DuplicateSerialNo(asset.serialNo)))
    else
      var saved := asset.(id := Some(freshId));
      Reply(store[freshId := saved], Ok(saved))
  }

  /** `deleteAsset`: a runtime error naming the id, with nothing removed, or exactly that id removed. */
  function DeleteAsset(store: Store, id: string): (r: Reply<()>)
    ensures id !in store ==> r == Reply(store, Err(NotFoundRuntime(id)))
    ensures id !in store ==> Message(r.result.error) == "Asset not found with id: " + id
    ensures id in store ==> r == Reply(store - {id}, Ok(()))
  {
    if id !in store then Reply(store, Err(NotFoundRuntime(id))) else Reply(store - {id}, Ok(()))
  }

  /**
    `updateAsset`. A changed serial number is looked up, and refused only when
    its holder has a different id; an unchanged one is not looked up at all.
    Name and date are always overwritten, the serial number when it changed,
    and the category never.
   */
  function UpdateAsset(store: Store, id: string, updated: Asset): (r: Reply<Asset>)
    requires StoreInvariant(store)
    ensures id !in store ==> r == Reply(store, Err(NotFoundRuntime(id)))
    ensures r.result.Err? ==> r.store == store
    ensures r.result.Err? && id in store ==> r.result.error == DuplicateSerialNo(updated.serialNo)
    ensures r.result.Ok? ==>
              && id in store
              && r.result.value == store[id].(name := updated.name, serialNo := updated.serialNo, assignDate := updated.assignDate)
              && r.result.value.category == store[id].category
              && r.store == store[id := r.result.value]
    ensures id in store && store[id].serialNo == updated.serialNo ==> r.result.Ok?
  {
    if id !in store then Reply(store, Err(NotFoundRuntime(id)))
    else
      var asset := store[id].(name := updated.name);
      if asset.serialNo != updated.serialNo then
        var existing := FindBySerialNo(store, updated.serialNo);
        if existing.Some? && store[existing.value].id != Some(id) then
          Reply(store, Err(DuplicateSerialNo(updated.serialNo)))
        else
          var saved := asset.(serialNo := updated.serialNo, assignDate := updated.assignDate);
          Reply(store[id := saved], Ok(saved))
      else
        var saved := asset.(assignDate := updated.assignDate);
        Reply(store[id := saved], Ok(saved))
  }

  /**
    On stores the database can hold, the same-id exclusion never matters: a
    changed serial number is refused exactly when some document holds it.
   */
  lemma UpdateRefusalIff(store: Store, id: string, updated: Asset)
    requires StoreInvariant(store)
    ensures id in store && store[id].serialNo != updated.serialNo ==>
              (UpdateAsset(store, id, updated).result.Err? <==> SerialTaken(store, updated.serialNo))
  {
  }

  /**
    The two services refuse the same updates; when both succeed they store the
    same document except that only the current one takes a new category.
   */
  lemma VariantsAgreeOnUpdate(store: Store, id: string, updated: Asset)
    requires StoreInvariant(store)
    ensures UpdateAsset(store, id, updated).result.Ok? <==> ServiceImpl.UpdateAsset(store, id, updated).result.Ok?
    ensures UpdateAsset(store, id, updated).result.Ok? ==>
              ServiceImpl.UpdateAsset(store, id, updated).result.value
              == UpdateAsset(store, id, updated).result.value.(category := ServiceImpl.UpdateAsset(store, id, updated).result.value.category)
    ensures UpdateAsset(store, id, updated).result.Ok? && (updated.category.None? || updated.category == store[id].category) ==>
              ServiceImpl.UpdateAsset(store, id, updated) == UpdateAsset(store, id, updated)
  {
    UpdateRefusalIff(store, id, updated);
  }

  /** Adding keeps every document under its own id and every serial number unique. */
  lemma AddPreservesInvariant(store: Store, asset: Asset, freshId: string)
    requires StoreInvariant(store) && freshId !in store
    ensures StoreInvariant(AddAsset(store, asset, freshId).store)
  {
  }

  /** Updating keeps every document under its own id and every serial number unique. */
  lemma UpdatePreservesInvariant(store: Store, id: string, updated: Asset)
    requires StoreInvariant(store)
    ensures StoreInvariant(UpdateAsset(store, id, updated).store)
  {
    var r := UpdateAsset(store, id, updated);
    if r.result.Ok? {
      var s' := r.store;
      forall k1, k2 | k1 in s' && k2 in s' && s'[k1].serialNo == s'[k2].serialNo
        ensures k1 == k2
      {
        if k1 != k2 && (k1 == id || k2 == id) {
          var other := if k1 == id then k2 else k1;
          assert store[other].serialNo == updated.serialNo;
          assert SerialTaken(store, updated.serialNo);
        }
      }
    }
  }

  /** Deleting keeps every document under its own id and every serial number unique. */
  lemma DeletePreservesInvariant(store: Store, id: string)
    requires StoreInvariant(store)
    ensures StoreInvariant(DeleteAsset(store, id).store)
  {
  }
}

=== FILE: text.dfy ===
/** String helpers: ASCII lower-casing and substring search (`String.prototype.includes`). */
module Text {

  /** Lower-cases one ASCII letter and leaves every other character alone. */
  function LowerChar(c: char): char
  {
    if 'A' <= c <= 'Z' then (c as int + 32) as char else c
  }

  /** `toLowerCase`, restricted to ASCII letters. */
  function Lower(s: string): (r: string)
    ensures |r| == |s|
    ensures forall i :: 0 <= i < |s| ==> r[i] == LowerChar(s[i])
  {
    if s == [] then [] else [LowerChar(s[0])] + Lower(s[1..])
  }

  /** Lower-casing an already lower-cased string changes nothing. */
  lemma LowerIdempotent(s: string)
    ensures Lower(Lower(s)) == Lower(s)
  {
    assert forall i :: 0 <= i < |s| ==> Lower(Lower(s))[i] == Lower(s)[i];
  }

  /** `needle` occurs in `hay` starting at position `i`. */
  predicate OccursAt(hay: string, needle: string, i: int)
  {
    0 <= i && i + |needle| <= |hay| && hay[i..i + |needle|] == needle
  }

  /** `hay.includes(needle)`. */
  predicate Contains(hay: string, needle: string)
  {
    exists i | 0 <= i <= |hay| - |needle| :: OccursAt(hay, needle, i)
  }

  /** The empty string occurs in every string. */
  lemma ContainsEmpty(hay: string)
    ensures Contains(hay, "")
  {
    assert OccursAt(hay, "", 0);
  }

  /** Every string occurs in itself, and a prefix or suffix occurs in the whole. */
  lemma ContainsConcat(a: string, b: string)
    ensures Contains(a + b, a) && Contains(a + b, b)
  {
    assert (a + b)[0..|a|] == a;
    assert OccursAt(a + b, a, 0);
    assert (a + b)[|a|..|a| + |b|] == b;
    assert OccursAt(a + b, b, |a|);
  }
}

=== FILE: wrappers.dfy ===
/** Failure-compatible wrappers shared by the front-end and back-end models. */
module Wrappers {

  /** A value that may be absent: JavaScript `undefined`/`null`, Java `null` or an empty `Optional`. */
  datatype Option<+T> = None | Some(value: T)

  /** The outcome of a call that either returns a value or fails with an error. */
  datatype Result<+T, +E> = Ok(value: T) | Err(error: E)
}
